=== FILE: README.md ===
# MV4.5 camera core in Dafny

A Dafny model of the host side of the MV4.5 vision program. That side is
an OAK depth camera running an on-device object detector, driven from
Python. The model covers three parts of that Python code:

- **Settings files** (`ConfigManager.py`). The table-driven reader for
  `frc.json`, `nn.json` and `mv.json`, the `ntmode` and `input_size`
  parsing, and the camera lookup `getCamera`.
- **Camera pipeline** (`CameraPipeline.py`):
  - `startPipeline`, which registers the output queues;
  - the `processNextFrame` polling tick, which moves the newest frame,
    depth buffer and detections into the camera and updates the frame rate;
  - `setupSDN`, which reads the neural-network file and picks and
    configures the detection node.
- **Detection records** (`Detections.py`). A raw detection becomes a
  published record in one of two ways:
  - 2-D path: pixel centre and radius, in input order;
  - spatial path: inches, after sorting by `label*100000 + z`.

  This includes the box mapping from network-input to frame pixels and
  the inner depth box `_average_depth_coord`.

Modules:

| file | module | content |
|---|---|---|
| json.dfy | `Json` | JSON values as `json.load` returns them |
| results.dfy | `Results` | `Option`, Python exceptions as `Result`, dict subscripting, a fail-fast map |
| numeric.dfy | `Numeric` | `int()` truncation of a float, Python arithmetic on a JSON value |
| text.dfy | `Text` | `str.split`, `int(str)`, `str(int)` |
| frames.dfy | `Frames` | image and depth buffers (dimensions and provenance only) |
| geometry.dfy | `Geometry` | rectangles, the frame mapping, the inner depth box |
| detector.dfy | `Detector` | the raw detection and its sort key |
| spatial_order.dfy | `SpatialOrder` | the stable sort of the spatial path |
| detections.dfy | `Detections` | detection records, both paths |
| config_manager.dfy | `ConfigManager` | the settings files |
| camera_pipeline.dfy | `CameraPipeline` | queues, the polling tick, `setupSDN` |

### Modelling choices

- **Exceptions** are `Err` values carrying the Python exception kind.
  A step that raises ends the whole operation, as an uncaught exception
  does.
- **Parameters.** Clock readings (`time.time_ns()`) are parameters. So
  are the blob files on disk, the OpenVINO version names the library
  knows, and the number of connected cameras.
- **Opening and parsing a file** becomes a `ConfigSource`: unopenable,
  not JSON, or parsed.
- **`dai.Rect` from two points** is taken with min/max corners, as
  `cv::Rect` builds it. `denormalize` is taken as a plain multiplication.
  `topLeft`/`bottomRight` are the corner points.
- **Numbers** are exact reals, not IEEE doubles.
- **`cm.nnConfig.inputSize`** is a module global in the program. The
  detection functions take it as an explicit `inputSize` parameter.

### Behaviour worth knowing

- **Missing label.** The label table is the JSON list `mappings.labels`,
  so a class index past its end raises `IndexError`. The
  `except KeyError` around the first lookup does not catch it, and the
  record looks the label up a second time without any handler. One
  unknown label therefore aborts the whole batch
  (`Detections.LookupLabel`, `Detections.ProcessDetections`).
- **No frame.** `processDetections` returns `None` when there is no frame.
- **254 mm** publishes as 10 inches: 254 × 0.0393701 = 10.0000054,
  truncated to 10 (`Detections.InchesExample`).
- **Equal clock readings.** A tick that brings a message and reads the
  clock value stored in `lastFrameTime` raises `ZeroDivisionError` in the
  frame-rate computation. That value is the time of the last tick that
  brought a message, or the start time (`CameraPipeline.ProcessNextFrame`).
- **Confidence threshold.** The configured `confidence_threshold` is read
  (it must exist) but then overridden by a fixed 0.5
  (`CameraPipeline.SetupFromJson`).

## Model

| member | source | states |
|---|---|---|
| Results.Subscript | ConfigManager.py:57 | `v[key]` succeeds exactly when `v` is an object holding `key` and then yields that field; otherwise KeyError for an object, TypeError for anything else |
| Results.MapAll | Detections.py:47-103 | a loop over a batch that stops at the first failure: succeeds iff every element does, with one result per element in order; a failure is the first failing element's error |
| Numeric.Trunc | Detections.py:56-59 | `int(x)` truncates toward zero: the result is within 1 of `x` on the side of zero |
| Numeric.AsNumber | ConfigManager.py:96 | arithmetic on a JSON value works for numbers and booleans and raises TypeError otherwise |
| Text.Split | ConfigManager.py:117 | `str.split` gives at least one piece, no piece holds the separator, and joining the pieces restores the string |
| Text.SplitJoin | ConfigManager.py:117 | splitting a join of separator-free pieces gives those pieces back |
| Text.ParseInt | ConfigManager.py:117 | `int(text)` succeeds exactly on optional whitespace, an optional sign and decimal digits; otherwise ValueError |
| Text.ParseIntPadded | ConfigManager.py:117 | surrounding whitespace, a leading `+` and leading zeros leave the value of `int(text)` unchanged, and a leading `-` negates it |
| Text.SeparatorNotPadding | ConfigManager.py:117 | `int()` skips only tab to carriage return and space: a leading file separator (0x1c), which `str.isspace` accepts, makes it raise ValueError |
| Text.ParseIntRoundTrip | ConfigManager.py:117 | `int(str(i)) == i` for every integer |
| Geometry.FromCorners | Detections.py:49 | the rectangle through two corners has non-negative size and spans their minimum and maximum |
| Geometry.MapToFrame | Detections.py:14-27 | fails (ZeroDivisionError, ValueError) exactly when the scale is undefined or `inputSize` is not a pair; otherwise it is undone by the inverse map, keeps the centre at the centre, keeps the aspect ratio and keeps the sign of the box size |
| Geometry.UnmapThenMap | Detections.py:14-27 | every frame rectangle is the image of exactly one network-input rectangle (the map is onto) |
| Geometry.NoClipping | Detections.py:14-27 | when network input and frame have the same aspect ratio, an edge lies outside the frame iff it lay outside the network input |
| Geometry.AverageDepthCoord | Detections.py:6-12 | the inner box of an ordered box with padding in [0, 1] lies inside it and stays ordered; padding 1 returns the box, padding 0 collapses it to one point |
| Detector.SortKeyBand | Detections.py:121 | the sort key `label*100000 + z`: for a depth in [0, 100000) mm the key lies in its class's band [label·100000, (label+1)·100000) |
| SpatialOrder.Insert | Detections.py:121 | inserting adds exactly that element (as a multiset) |
| SpatialOrder.InsertSorted | Detections.py:121 | insertion keeps a sequence sorted by key |
| SpatialOrder.SortByKey | Detections.py:121 | the sort is a permutation of the batch whose keys never decrease |
| SpatialOrder.SortIsStable | Detections.py:121 | detections with equal keys keep their input order (Python's sort is stable) |
| SpatialOrder.SortedGroupsByLabel | Detections.py:121 | with depths below 100000 mm the sorted batch is grouped by class index, smallest first |
| SpatialOrder.SortExample | Detections.py:121 | class 0 at 900 mm precedes class 1 at 100 mm, which precedes class 1 at 500 mm |
| Detections.InchesOf | Detections.py:167-169 | the published inch value is the exact inch value truncated toward zero, and has its sign |
| Detections.InchesExample | Detections.py:167-169 | 254 mm gives 10, -254 mm gives -10, 25 mm gives 0 |
| Detections.LookupLabel | Detections.py:154-158 | a list label table yields the entry for an index in range and IndexError otherwise; a dict table always fails |
| Detections.DetectionBox | Detections.py:131-141 | the pixel box exists exactly when the mapping is defined, raises IndexError or ValueError for a malformed `inputSize`; its corners are the truncated corners of the mapped box, which maps back to the denormalised detection; it is ordered for positive network-input sizes |
| Detections.Oak1Record | Detections.py:47-101 | a 2-D record exists iff its box and label do; its point is equidistant from the box edges and inside the box, its radius is half the larger side |
| Detections.DrawnLabel | Detections.py:154-158 | the drawn label is the table entry, or the raw class index when the lookup raises KeyError; any other lookup failure propagates |
| Detections.SpatialRecord | Detections.py:124-182 | a spatial record exists iff box, label and a numeric `bbfraction` do; failures come in source order: box, an uncaught first label lookup, then TypeError from a non-numeric `bbfraction`, then the second lookup (so a dict table with a bad `bbfraction` gives TypeError); its position is the truncated inches of the spatial coordinates |
| Detections.ProcessOak1Detections | Detections.py:40-103 | one 2-D record per detection in input order; a failed batch reports the error of its first failing detection |
| Detections.ProcessDetections | Detections.py:106-184 | nothing iff there is no frame; one record per detection; input order without depth; sorted order with depth; a failure comes from a failing detection |
| Detections.SpatialRecordsFollowStableSort | Detections.py:121-184 | spatial records follow a stable, key-sorted permutation of the batch |
| ConfigManager.ApplyEntries | ConfigManager.py:54-61 | the entry loop succeeds iff every required key is present; each value is the file's or the default; a failure reports the first missing required entry |
| ConfigManager.Scope | ConfigManager.py:41-52 | opening, parsing, the object check and the drill-down succeed exactly for an object holding the drill-down key, with the matching error otherwise |
| ConfigManager.Load | ConfigManager.py:37-63 | the settings reader with the intended message: succeeds iff the scope exists and every required key is present, values as in the table, the first missing required key reported by its message |
| ConfigManager.LoadAsWritten | ConfigManager.py:56-61 | the reader as written agrees with the intended one on success, but a missing required key raises AttributeError |
| ConfigManager.ParseNtMode | ConfigManager.py:86-93 | "server" gives server mode, "client" client mode, anything else raises naming the value |
| ConfigManager.LoadFRCConfig | ConfigManager.py:69-96 | the intended reader (built on `ConfigManager.Load`): the team number is required and its absence reports "Could not read team number"; server mode iff `ntmode` is "server"; defaults are client mode and zero laser current; a bad `ntmode` fails; a file with a team number, a known `ntmode` and a numeric laser current always loads |
| ConfigManager.LoadFRCConfigAsWritten | ConfigManager.py:59-60 | as written, an frc.json without `team` raises AttributeError; otherwise the result agrees with the intended reader |
| ConfigManager.ParseInputSize | ConfigManager.py:117 | only a string can be split; it parses iff every `x`-separated piece is an integer, one number per piece |
| ConfigManager.InputSize | CameraPipeline.py:115-118 | the intended input size: `(300, 300)` without the key, otherwise exactly the piece-by-piece parse of the string |
| ConfigManager.InputSizeAsWritten | ConfigManager.py:103-117 | as written, a missing `input_size` raises AttributeError instead of defaulting |
| ConfigManager.InputSizeRoundTrip | ConfigManager.py:117 | `"<w>x<h>"` parses to `(w, h)` |
| ConfigManager.LoadNNConfig | ConfigManager.py:100-118 | the `nn_config` section's values or their defaults, with a 300x300 input when `input_size` is absent; an unopenable, non-JSON or non-object file, or one without `nn_config`, raises the scope's error; once the section exists, loading succeeds iff the input size parses |
| ConfigManager.LoadNNConfigAsWritten | ConfigManager.py:100-118 | as written: the same scope errors as the intended reader; a section without `input_size` fails with AttributeError; with it, the result agrees with the intended reader |
| ConfigManager.LoadMVConfig | ConfigManager.py:122-159 | every setting is optional: loading succeeds iff the file is an object, each value the file's or the default |
| ConfigManager.FirstMatch | ConfigManager.py:161-165 | the first camera entry with the wanted `mxid`; None iff every entry has a different `mxid`; an earlier entry without `mxid` raises |
| ConfigManager.GetCamera | ConfigManager.py:161-165 | for a list, the first entry with the wanted `mxid`, None iff every entry names another one, and an error from an earlier entry without `mxid`; a non-list only yields None when empty |
| ConfigManager.MissingTeamMessageLost | ConfigManager.py:59-60 | an empty frc.json should report the missing team number but raises AttributeError |
| ConfigManager.MissingInputSizeDefaultLost | ConfigManager.py:103-117 | an empty `nn_config` should give a 300x300 input but raises AttributeError |
| CameraPipeline.Pop | CameraPipeline.py:344-353 | `q.get()` removes the oldest message and keeps the rest in order, with the queue's role and stream |
| CameraPipeline.Take | CameraPipeline.py:342-353 | a message replaces exactly the slot its queue feeds (frame, depth or detections); the isp message is dropped |
| CameraPipeline.PollQueues | CameraPipeline.py:339-353 | each queue with a message loses one; changes happen iff some queue had data; depth changed iff the depth queue had data, and then a depth buffer is held |
| CameraPipeline.SlotUntouched | CameraPipeline.py:339-353 | a slot no queue with data feeds keeps its value |
| CameraPipeline.SlotFromLastFeeder | CameraPipeline.py:339-353 | a slot ends up with the message of the last queue with data that feeds it |
| CameraPipeline.ProcessNextFrame | CameraPipeline.py:335-367 | raises ZeroDivisionError exactly when a tick with data reads the clock value in `lastFrameTime` (the last tick with data, or the start); otherwise reports changes iff some queue had data; a tick without data changes nothing; with data, the fps is the truncated reciprocal of the elapsed time and the time is recorded; the depth rendering follows the depth buffer exactly when one arrived |
| CameraPipeline.HasDepth | CameraPipeline.py:31 | depth is used only when asked for, never on a device with at most one camera, and always when asked for with two or more |
| CameraPipeline.RegisteredRoles | CameraPipeline.py:290-330 | the detection queue comes first iff a network file is configured; preview and depth iff the camera has depth, rgb otherwise; never isp; no role twice |
| CameraPipeline.StartPipeline | CameraPipeline.py:290-330 | a started camera has empty queues registered as above, empty slots, zero fps and the start time recorded; it has a depth queue iff depth was asked for and the device has two or more cameras |
| CameraPipeline.RegisteredTickFrame | CameraPipeline.py:290-353 | on a started camera the frame comes from the one preview or rgb queue, right after the optional detection queue |
| CameraPipeline.RegisteredTickDetections | CameraPipeline.py:290-353 | the detections come from the first queue when a network is configured and never change otherwise |
| CameraPipeline.RegisteredTickDepth | CameraPipeline.py:290-367 | the depth buffer comes from the queue after the frame queue on a depth camera; without depth neither it nor its rendering changes |
| CameraPipeline.SelectNodeType | CameraPipeline.py:120-128 | "mobilenet" and "YOLO" select their node, spatial iff the camera has depth; any other family raises naming it |
| CameraPipeline.ReadNNConfig | CameraPipeline.py:69-82 | an unopenable or non-object file reads as `{}`; text that is not JSON raises |
| CameraPipeline.OpenvinoVersion | CameraPipeline.py:107-113 | absent or empty means the default version; a non-empty name is accepted iff the library knows it |
| CameraPipeline.YoloMetadataOf | CameraPipeline.py:143-150 | the six YOLO parameters are read from `NN_specific_metadata`, whose absence raises KeyError |
| CameraPipeline.NetworkParameters | CameraPipeline.py:143-153 | YOLO parameters exactly for a YOLO node, failing as reading the metadata fails; MobileNet needs `confidence_threshold`, whose absence raises KeyError |
| CameraPipeline.ConfigureHead | CameraPipeline.py:93-113 | the steps before the input size: on success they have found the `nn_config` object of the file |
| CameraPipeline.SetupFromJson | CameraPipeline.py:93-164 | the intended reading: an error in the steps before the input size is the result; a file whose input size, `NN_family`, node type and network parameters all read configures a node; a configured node has the file's labels, an existing blob, the OpenVINO version the file names, the `bb_fraction` or 0.2, the intended input size (300x300 without `input_size`), the node type of its family, the network parameters of that type, a spatial node iff depth, YOLO parameters iff YOLO, a 0.5 threshold and the depth range 100-5000 mm iff depth |
| CameraPipeline.SetupFromJsonAsWritten | CameraPipeline.py:115-118 | as written: with `input_size` present the result is exactly the intended one, errors included; without it, the result is the first error of the steps before the input size, or else AttributeError; so it fails whenever the intended reading fails |
| CameraPipeline.SetupSDN | CameraPipeline.py:85-164 | the intended reading: no network file gives no node; an unreadable or non-object file fails on `mappings`; non-JSON raises ValueError; otherwise a node as above |
| CameraPipeline.SetupSDNAsWritten | CameraPipeline.py:85-164 | as written: exactly the intended `setupSDN` when there is no file, the file is not JSON or its `nn_config` names `input_size`; otherwise the first error of the steps before the input size, or else AttributeError |

## Left out

- Drawing on the frame (`cv2.putText`, `cv2.rectangle`, `cv2.circle`) only produces pixels and decides nothing that is published.
- `buildPipeline`, `serializePipeline` and the depthai node wiring are device configuration made through foreign library calls.
- `AprilTag5.py`, `FRC.py` and `MonsterVision4.5.py` are not part of this model.
- The pixel arithmetic of the depth colourisation (`cv2.normalize`, `equalizeHist`, `applyColorMap`) is library code. `Frames.Colourise` keeps it symbolic.
- `round(confidence, 2)` rounds a binary double. It is kept symbolic as `Rounded2`.
- IEEE double rounding is not modelled, because all arithmetic is on exact reals.
- Class-level `ComputedValue` defaults are shared between instances, so an earlier instance's values leak into a later one. The model reads each file with fresh defaults.
- Text.ParseInt: Python's `int()` also accepts `_` digit separators, non-ASCII digits and non-ASCII whitespace; the model accepts ASCII digits and ASCII whitespace (tab to carriage return, and space) only.
- `hasLaser`, the laser projector call, lens-focus calibration and the stderr messages are device I/O with no effect on the modelled state.
- CameraPipeline.ProcessNextFrame: on ZeroDivisionError the model returns only the error. In the program the queues were already polled when the division raised. The exception ends the program's loop, so the partly updated state is not modelled.
- ConfigManager.LoadFRCConfig: it is the intended reader and reports the missing team number by its message. `FRCConfig` as written raises AttributeError there, which `ConfigManager.LoadFRCConfigAsWritten` models.
- Detections.ProcessDetections: a failed batch is only shown to stem from some failing detection, not from the first in processing order.
- CameraPipeline.SetupFromJson: it is the intended reading, with `ConfigManager.InputSize` defaulting a missing `input_size` to 300x300. The code as written raises AttributeError there, which `CameraPipeline.SetupFromJsonAsWritten` models through `ConfigManager.InputSizeAsWritten`.
- CameraPipeline.SetupSDN: it is the intended reading built on `CameraPipeline.SetupFromJson`; `CameraPipeline.SetupSDNAsWritten` is the code as written.
- CameraPipeline.SetupFromJson: which error a failing input size, `NN_family`, node type or network parameter raises is not stated clause by clause; the contract gives the errors of the earlier steps, and success when every step succeeds.
- CameraPipeline.SetupFromJson: values that depthai itself would reject (e.g. a non-numeric `bb_fraction` on a spatial node) are passed through unchecked.

## Findings

| source | as written | input that shows it | evidently intended | confidence | as-written member | corrected member |
|---|---|---|---|---|---|---|
| ConfigManager.py:59-60 | the missing-key message is read as `entry['mess'].value`, but `mess` is a plain string, so AttributeError is raised | an frc.json without `team` | raise "config error in '/boot/frc.json': Could not read team number" | high, not executed | ConfigManager.LoadAsWritten, ConfigManager.LoadFRCConfigAsWritten | ConfigManager.Load, ConfigManager.LoadFRCConfig |
| ConfigManager.py:103-117 | a missing `input_size` leaves a non-string: the `(300, 300)` tuple here, `None` from `dict.get` at CameraPipeline.py:116. Its `.split` raises AttributeError, which `except KeyError` does not catch | an nn.json whose `nn_config` has no `input_size` | default to `(300, 300)` | high, not executed | ConfigManager.InputSizeAsWritten, CameraPipeline.SetupFromJsonAsWritten, CameraPipeline.SetupSDNAsWritten | ConfigManager.InputSize, CameraPipeline.SetupFromJson, CameraPipeline.SetupSDN |

=== FILE: camera_pipeline.dfy ===
/** CameraPipeline.py: the host side of one OAK camera. Which output queues
    a started pipeline polls, how one polling tick (`processNextFrame`)
    moves the newest messages into the camera's frame, depth and detection
    slots, and how `setupSDN` turns the neural-network settings file into
    the configuration of the detection node. */
module CameraPipeline {

  import opened Json
  import opened Results
  import opened Numeric
  import opened Frames
  import opened Detector
  import opened ConfigManager

  // ------------------------------------------------------------------ queues

  /** The names a queue is registered under, which `processNextFrame`
      dispatches on. */
  datatype Role = Preview | Depth | Isp | Rgb | DetectionNN

  /** The three image streams. */
  datatype ImageStream = PreviewStream | RgbStream | IspStream

  /** A host-side output queue with the messages waiting in it, oldest
      first. */
  datatype Queue =
    | ImageQueue(stream: ImageStream, images: seq<Image>)
    | DepthQueue(depths: seq<DepthMap>)
    | DetectionQueue(batches: seq<seq<RawDetection>>)

  function RoleOf(q: Queue): Role {
    match q
    case ImageQueue(PreviewStream, _) => Preview
    case ImageQueue(RgbStream, _) => Rgb
    case ImageQueue(IspStream, _) => Isp
    case DepthQueue(_) => Depth
    case DetectionQueue(_) => DetectionNN
  }

  function Size(q: Queue): nat {
    match q
    case ImageQueue(_, images) => |images|
    case DepthQueue(depths) => |depths|
    case DetectionQueue(batches) => |batches|
  }

  /** `q.has()`. */
  predicate Has(q: Queue) {
    Size(q) > 0
  }

  /** The queue once `q.get()` has removed its oldest message. */
  function Pop(q: Queue): (r: Queue)
    requires Has(q)
    ensures RoleOf(r) == RoleOf(q)
    ensures Size(r) == Size(q) - 1
    // the oldest message goes, the rest stay in order
    ensures q.ImageQueue? ==> r.ImageQueue? && r.stream == q.stream && q.images == [q.images[0]] + r.images
    ensures q.DepthQueue? ==> r.DepthQueue? && q.depths == [q.depths[0]] + r.depths
    ensures q.DetectionQueue? ==> r.DetectionQueue? && q.batches == [q.batches[0]] + r.batches
  {
    match q
    case ImageQueue(stream, images) => ImageQueue(stream, images[1..])
    case DepthQueue(depths) => DepthQueue(depths[1..])
    case DetectionQueue(batches) => DetectionQueue(batches[1..])
  }

  /** A queue after one tick: one message fewer if it had any. */
  function AfterTick(q: Queue): Queue {
    if Has(q) then Pop(q) else q
  }

  /** The state a tick can update, one slot per kind of message. */
  datatype Slot = FrameSlot | DepthSlot | DetectionsSlot

  datatype Slots = Slots(frame: Option<Image>, depthFrame: Option<DepthMap>, detections: Option<seq<RawDetection>>)

  /** Whether a message from `q` lands in `slot`. The isp stream feeds no
      slot: its message is fetched and dropped. */
  predicate Feeds(q: Queue, slot: Slot) {
    match q
    case ImageQueue(stream, _) => slot == FrameSlot && stream != IspStream
    case DepthQueue(_) => slot == DepthSlot
    case DetectionQueue(_) => slot == DetectionsSlot
  }

  predicate SameIn(slot: Slot, a: Slots, b: Slots) {
    match slot
    case FrameSlot => a.frame == b.frame
    case DepthSlot => a.depthFrame == b.depthFrame
    case DetectionsSlot => a.detections == b.detections
  }

  /** The `match name` dispatch for a queue with a message: the message
      replaces the slot its queue feeds and nothing else. */
  function Take(q: Queue, s: Slots): (r: Slots)
    requires Has(q)
    ensures forall slot :: !Feeds(q, slot) ==> SameIn(slot, r, s)
    ensures Feeds(q, FrameSlot) ==> r.frame == Some(q.images[0])
    ensures Feeds(q, DepthSlot) ==> r.depthFrame == Some(q.depths[0])
    ensures Feeds(q, DetectionsSlot) ==> r.detections == Some(q.batches[0])
  {
    match q
    case ImageQueue(stream, images) =>
      if stream == IspStream then s else s.(frame := Some(images[0]))
    case DepthQueue(depths) => s.(depthFrame := Some(depths[0]))
    case DetectionQueue(batches) => s.(detections := Some(batches[0]))
  }

  /** Some queue has a message waiting. */
  predicate AnyData(qs: seq<Queue>) {
    exists i :: 0 <= i < |qs| && Has(qs[i])
  }

  /** The depth queue has a message waiting. */
  predicate DepthArrived(qs: seq<Queue>) {
    exists i :: 0 <= i < |qs| && Has(qs[i]) && qs[i].DepthQueue?
  }

  /** Whether some queue with a message feeds `slot`. */
  predicate Fed(qs: seq<Queue>, slot: Slot) {
    exists i :: 0 <= i < |qs| && Has(qs[i]) && Feeds(qs[i], slot)
  }

  datatype Poll = Poll(queues: seq<Queue>, slots: Slots, anyChanges: bool, depthChanged: bool)

  /** The `for q, name in self.queues` loop: every queue with a message
      gives up its oldest one, in registration order. */
  function PollQueues(qs: seq<Queue>, s: Slots): (r: Poll)
    ensures |r.queues| == |qs|
    ensures forall i :: 0 <= i < |qs| ==> r.queues[i] == AfterTick(qs[i])
    ensures r.anyChanges <==> AnyData(qs)
    ensures r.depthChanged <==> DepthArrived(qs)
    ensures !AnyData(qs) ==> r.slots == s
    ensures r.depthChanged ==> r.slots.depthFrame.Some?
    ensures !r.depthChanged ==> r.slots.depthFrame == s.depthFrame
    decreases |qs|
  {
    if |qs| == 0 then Poll([], s, false, false)
    else
      var q := qs[0];
      var rest := PollQueues(qs[1..], if Has(q) then Take(q, s) else s);
      assert forall i :: 1 <= i < |qs| ==> qs[i] == qs[1..][i - 1];
      Poll([AfterTick(q)] + rest.queues, rest.slots,
           Has(q) || rest.anyChanges, (Has(q) && q.DepthQueue?) || rest.depthChanged)
  }

  /** A slot no queue with a message feeds keeps its value. */
  lemma {:induction false} SlotUntouched(qs: seq<Queue>, s: Slots, slot: Slot)
    requires !Fed(qs, slot)
    ensures SameIn(slot, PollQueues(qs, s).slots, s)
    decreases |qs|
  {
    if |qs| > 0 {
      var s1 := if Has(qs[0]) then Take(qs[0], s) else s;
      assert !Fed(qs[1..], slot) by {
        forall i | 0 <= i < |qs[1..]| ensures !(Has(qs[1..][i]) && Feeds(qs[1..][i], slot)) {
          assert qs[1..][i] == qs[i + 1];
        }
      }
      SlotUntouched(qs[1..], s1, slot);
    }
  }

  /** A slot ends up holding the message of the last queue with a message
      that feeds it. */
  lemma {:induction false} SlotFromLastFeeder(qs: seq<Queue>, s: Slots, slot: Slot, i: nat, t: Slots)
    requires i < |qs| && Has(qs[i]) && Feeds(qs[i], slot)
    requires forall j :: i < j < |qs| ==> !(Has(qs[j]) && Feeds(qs[j], slot))
    ensures SameIn(slot, PollQueues(qs, s).slots, Take(qs[i], t))
    decreases |qs|
  {
    var s1 := if Has(qs[0]) then Take(qs[0], s) else s;
    if i == 0 {
      assert !Fed(qs[1..], slot) by {
        forall k | 0 <= k < |qs[1..]| ensures !(Has(qs[1..][k]) && Feeds(qs[1..][k], slot)) {
          assert qs[1..][k] == qs[k + 1];
        }
      }
      SlotUntouched(qs[1..], s1, slot);
    } else {
      assert qs[1..][i - 1] == qs[i];
      assert forall j :: i - 1 < j < |qs[1..]| ==> qs[1..][j] == qs[j + 1];
      SlotFromLastFeeder(qs[1..], s1, slot, i - 1, t);
    }
  }

  // ------------------------------------------------------------------ camera

  /** The host-side state of one camera: its registered queues, the newest
      frame, depth buffer and detections, the rendered depth image, and the
      frame-rate bookkeeping. */
  datatype Camera = Camera(
    queues: seq<Queue>,
    frame: Option<Image>,
    depthFrame: Option<DepthMap>,
    detections: Option<seq<RawDetection>>,
    depthFrameColor: Option<Image>,
    fps: int,
    lastFrameTime: real)

  /** `processNextFrame()`, with the clock reading `now` (seconds) as a
      parameter. Returns the new state and whether anything arrived. The
      frame rate is the truncated reciprocal of the time since the last
      tick that brought a message; ticks that bring none change nothing.
      A tick with a message whose clock reading equals `lastFrameTime`
      (the time of the last tick that brought a message, or the start
      time) divides by zero. */
  function ProcessNextFrame(c: Camera, now: real): (r: Result<(Camera, bool)>)
    ensures r.Err? <==> AnyData(c.queues) && now == c.lastFrameTime
    ensures r.Err? ==> r.error == ZeroDivisionError
    ensures r.Ok? ==> (r.value.1 <==> AnyData(c.queues))
    ensures r.Ok? && !r.value.1 ==> r.value.0 == c
    ensures r.Ok? && r.value.1 ==>
              r.value.0.lastFrameTime == now && r.value.0.fps == Trunc(1.0 / (now - c.lastFrameTime))
    ensures r.Ok? ==> |r.value.0.queues| == |c.queues|
    ensures r.Ok? ==> forall i :: 0 <= i < |c.queues| ==>
              RoleOf(r.value.0.queues[i]) == RoleOf(c.queues[i])
              && Size(r.value.0.queues[i]) == if Has(c.queues[i]) then Size(c.queues[i]) - 1 else Size(c.queues[i])
    ensures r.Ok? && DepthArrived(c.queues) ==>
              r.value.0.depthFrame.Some? && r.value.0.depthFrameColor == Some(Colourise(r.value.0.depthFrame.value))
    ensures r.Ok? && !DepthArrived(c.queues) ==>
              r.value.0.depthFrame == c.depthFrame && r.value.0.depthFrameColor == c.depthFrameColor
  {
    var p := PollQueues(c.queues, Slots(c.frame, c.depthFrame, c.detections));
    if p.anyChanges && now == c.lastFrameTime then Err(ZeroDivisionError)
    else
      var (fps, last) := if p.anyChanges then (Trunc(1.0 / (now - c.lastFrameTime)), now)
                         else (c.fps, c.lastFrameTime);
      var colour := if p.depthChanged then Some(Colourise(p.slots.depthFrame.value)) else c.depthFrameColor;
      Ok((Camera(p.queues, p.slots.frame, p.slots.depthFrame, p.slots.detections, colour, fps, last),
          p.anyChanges))
  }

  /** `self.hasDepth`: depth is used only when asked for and the device has
      more than one camera. */
  function HasDepth(useDepth: bool, connectedCameras: nat): (d: bool)
    ensures d ==> useDepth
    ensures connectedCameras <= 1 ==> !d
    ensures useDepth && connectedCameras >= 2 ==> d
  {
    useDepth && connectedCameras > 1
  }

  /** The roles `startPipeline` registers, in order: the detection queue
      when a network is configured, then preview and depth on a depth
      camera or rgb otherwise. The isp queue is never registered. */
  function RegisteredRoles(hasNN: bool, hasDepth: bool): (roles: seq<Role>)
    ensures DetectionNN in roles <==> hasNN
    ensures hasNN ==> roles[0] == DetectionNN
    ensures (Preview in roles) <==> hasDepth
    ensures (Depth in roles) <==> hasDepth
    ensures (Rgb in roles) <==> !hasDepth
    ensures Isp !in roles
    ensures forall i, j :: 0 <= i < j < |roles| ==> roles[i] != roles[j]
  {
    (if hasNN then [DetectionNN] else []) + (if hasDepth then [Preview, Depth] else [Rgb])
  }

  /** The queues of a camera are registered under `roles`, in order. */
  predicate RegisteredAs(qs: seq<Queue>, roles: seq<Role>) {
    |qs| == |roles| && forall i :: 0 <= i < |qs| ==> RoleOf(qs[i]) == roles[i]
  }

  function EmptyQueue(role: Role): (q: Queue)
    ensures RoleOf(q) == role && !Has(q)
  {
    match role
    case Preview => ImageQueue(PreviewStream, [])
    case Rgb => ImageQueue(RgbStream, [])
    case Isp => ImageQueue(IspStream, [])
    case Depth => DepthQueue([])
    case DetectionNN => DetectionQueue([])
  }

  /** A camera just constructed (`__init__`) and started (`startPipeline`)
      at clock reading `startTime`: empty registered queues, empty slots,
      zero frame rate. */
  function StartPipeline(hasNNFile: bool, useDepth: bool, connectedCameras: nat, startTime: real): (c: Camera)
    ensures RegisteredAs(c.queues, RegisteredRoles(hasNNFile, HasDepth(useDepth, connectedCameras)))
    ensures !AnyData(c.queues)
    ensures c.frame.None? && c.depthFrame.None? && c.detections.None? && c.depthFrameColor.None?
    ensures c.fps == 0 && c.lastFrameTime == startTime
    // a depth queue is registered exactly when depth is asked for on a multi-camera device
    ensures (exists i :: 0 <= i < |c.queues| && c.queues[i].DepthQueue?) <==> useDepth && connectedCameras > 1
  {
    var roles := RegisteredRoles(hasNNFile, HasDepth(useDepth, connectedCameras));
    Camera(seq(|roles|, i requires 0 <= i < |roles| => EmptyQueue(roles[i])),
           None, None, None, None, 0, startTime)
  }

  /** The index of the registered queue that feeds the frame. */
  function FrameIndex(hasNN: bool): nat {
    if hasNN then 1 else 0
  }

  /** Which slot a queue registered under `role` feeds. */
  predicate RoleFeeds(role: Role, slot: Slot) {
    match slot
    case FrameSlot => role == Preview || role == Rgb
    case DepthSlot => role == Depth
    case DetectionsSlot => role == DetectionNN
  }

  lemma FeedsByRole(q: Queue, slot: Slot)
    ensures Feeds(q, slot) <==> RoleFeeds(RoleOf(q), slot)
  {
  }

  /** In the registered order, the queue at `k` is the only one feeding
      `slot`. */
  lemma {:induction false} OnlyFeeder(qs: seq<Queue>, roles: seq<Role>, slot: Slot, k: nat)
    requires RegisteredAs(qs, roles)
    requires forall j :: 0 <= j < |roles| && j != k ==> !RoleFeeds(roles[j], slot)
    ensures forall j :: 0 <= j < |qs| && j != k ==> !Feeds(qs[j], slot)
  {
    forall j | 0 <= j < |qs| && j != k
      ensures !Feeds(qs[j], slot)
    {
      FeedsByRole(qs[j], slot);
    }
  }

  /** The tick's slots come from polling the camera's queues. */
  lemma TickSlots(c: Camera, now: real)
    requires ProcessNextFrame(c, now).Ok?
    ensures var r, p := ProcessNextFrame(c, now).value.0, PollQueues(c.queues, Slots(c.frame, c.depthFrame, c.detections));
            r.frame == p.slots.frame && r.depthFrame == p.slots.depthFrame && r.detections == p.slots.detections
  {
  }

  /** Polling sets a slot from its only source queue when that queue has a
      message, and leaves it alone otherwise. */
  lemma SlotFromOnlyFeeder(qs: seq<Queue>, s: Slots, slot: Slot, k: nat)
    requires k < |qs| && Feeds(qs[k], slot)
    requires forall j :: 0 <= j < |qs| && j != k ==> !Feeds(qs[j], slot)
    ensures Has(qs[k]) ==> SameIn(slot, PollQueues(qs, s).slots, Take(qs[k], s))
    ensures !Has(qs[k]) ==> SameIn(slot, PollQueues(qs, s).slots, s)
  {
    if Has(qs[k]) {
      SlotFromLastFeeder(qs, s, slot, k, s);
    } else {
      SlotUntouched(qs, s, slot);
    }
  }

  /** On a started camera the frame comes from the preview or rgb queue,
      which sits right after the optional detection queue. */
  lemma RegisteredTickFrame(c: Camera, hasNN: bool, hasDepth: bool, now: real)
    requires RegisteredAs(c.queues, RegisteredRoles(hasNN, hasDepth))
    requires ProcessNextFrame(c, now).Ok?
    ensures var r, qs, k := ProcessNextFrame(c, now).value.0, c.queues, FrameIndex(hasNN);
            k < |qs| && qs[k].ImageQueue?
            && r.frame == (if Has(qs[k]) then Some(qs[k].images[0]) else c.frame)
  {
    var qs, k := c.queues, FrameIndex(hasNN);
    var roles := RegisteredRoles(hasNN, hasDepth);
    assert RoleOf(qs[k]) == roles[k];
    OnlyFeeder(qs, roles, FrameSlot, k);
    SlotFromOnlyFeeder(qs, Slots(c.frame, c.depthFrame, c.detections), FrameSlot, k);
    TickSlots(c, now);
  }

  /** The detections come from the first queue when a network is
      configured, and never change otherwise. */
  lemma RegisteredTickDetections(c: Camera, hasNN: bool, hasDepth: bool, now: real)
    requires RegisteredAs(c.queues, RegisteredRoles(hasNN, hasDepth))
    requires ProcessNextFrame(c, now).Ok?
    ensures var r, qs := ProcessNextFrame(c, now).value.0, c.queues;
            hasNN ==> qs[0].DetectionQueue?
                      && r.detections == (if Has(qs[0]) then Some(qs[0].batches[0]) else c.detections)
    ensures !hasNN ==> ProcessNextFrame(c, now).value.0.detections == c.detections
  {
    var qs := c.queues;
    var roles := RegisteredRoles(hasNN, hasDepth);
    var s := Slots(c.frame, c.depthFrame, c.detections);
    TickSlots(c, now);
    if hasNN {
      assert RoleOf(qs[0]) == roles[0];
      OnlyFeeder(qs, roles, DetectionsSlot, 0);
      SlotFromOnlyFeeder(qs, s, DetectionsSlot, 0);
    } else {
      OnlyFeeder(qs, roles, DetectionsSlot, |qs|);
      SlotUntouched(qs, s, DetectionsSlot);
    }
  }

  /** The depth buffer comes from the queue after the frame queue on a
      depth camera, and neither it nor its rendering changes otherwise. */
  lemma RegisteredTickDepth(c: Camera, hasNN: bool, hasDepth: bool, now: real)
    requires RegisteredAs(c.queues, RegisteredRoles(hasNN, hasDepth))
    requires ProcessNextFrame(c, now).Ok?
    ensures var r, qs, k := ProcessNextFrame(c, now).value.0, c.queues, FrameIndex(hasNN);
            hasDepth ==> k + 1 < |qs| && qs[k + 1].DepthQueue?
                         && r.depthFrame == (if Has(qs[k + 1]) then Some(qs[k + 1].depths[0]) else c.depthFrame)
    ensures !hasDepth ==> ProcessNextFrame(c, now).value.0.depthFrame == c.depthFrame
                          && ProcessNextFrame(c, now).value.0.depthFrameColor == c.depthFrameColor
  {
    var qs, k := c.queues, FrameIndex(hasNN);
    var roles := RegisteredRoles(hasNN, hasDepth);
    var s := Slots(c.frame, c.depthFrame, c.detections);
    TickSlots(c, now);
    if hasDepth {
      assert RoleOf(qs[k + 1]) == roles[k + 1];
      OnlyFeeder(qs, roles, DepthSlot, k + 1);
      SlotFromOnlyFeeder(qs, s, DepthSlot, k + 1);
    } else {
      OnlyFeeder(qs, roles, DepthSlot, |qs|);
      assert !DepthArrived(qs);
    }
  }

  // --------------------------------------------------------------- setupSDN

  /** The four detection node classes `setupSDN` chooses between. */
  datatype NodeType =
    | MobileNetDetectionNetwork
    | MobileNetSpatialDetectionNetwork
    | YoloDetectionNetwork
    | YoloSpatialDetectionNetwork

  /** The node also consumes the depth stream. */
  predicate IsSpatial(t: NodeType) {
    t == MobileNetSpatialDetectionNetwork || t == YoloSpatialDetectionNetwork
  }

  predicate IsYolo(t: NodeType) {
    t == YoloDetectionNetwork || t == YoloSpatialDetectionNetwork
  }

  /** The node type for a network family: the family picks MobileNet or
      YOLO, depth availability picks the spatial variant. */
  function SelectNodeType(family: Value, hasDepth: bool): (r: Result<NodeType>)
    ensures r.Ok? <==> family == Str("mobilenet") || family == Str("YOLO")
    ensures r.Ok? ==> (IsSpatial(r.value) <==> hasDepth)
    ensures r.Ok? ==> (IsYolo(r.value) <==> family == Str("YOLO"))
    ensures r.Err? ==> r.error == RaisedAbout("Unknown NN_family: ", family, "")
  {
    if family == Str("mobilenet") then
      Ok(if hasDepth then MobileNetSpatialDetectionNetwork else MobileNetDetectionNetwork)
    else if family == Str("YOLO") then
      Ok(if hasDepth then YoloSpatialDetectionNetwork else YoloDetectionNetwork)
    else Err(RaisedAbout("Unknown NN_family: ", family, ""))
  }

  /** `read_nn_config()`: an unopenable file or a non-object document
      gives an empty object (after a message on stderr); text that is not
      JSON raises. */
  function ReadNNConfig(src: ConfigSource): (r: Result<map<string, Value>>)
    ensures r.Err? <==> src.NotJson?
    ensures r.Err? ==> r.error == ValueError
    ensures src.Parsed? && src.json.Obj? ==> r == Ok(src.json.fields)
    ensures src.Unopenable? || (src.Parsed? && !src.json.Obj?) ==> r == Ok(map[])
  {
    match src
    case Unopenable(_) => Ok(map[])
    case NotJson => Err(ValueError)
    case Parsed(j) => if j.Obj? then Ok(j.fields) else Ok(map[])
  }

  /** The `openvino_version` setting: absent or empty means the default
      version; any other value must name a version the library knows
      (`knownVersions`), or the map lookup raises. */
  function OpenvinoVersion(nnConfig: Value, knownVersions: set<string>): (r: Result<Option<string>>)
    ensures r == Ok(None) <==> Setting(nnConfig, "openvino_version", Str("")) == Str("")
    ensures r.Ok? && r.value.Some? ==>
              r.value.value in knownVersions && Present(nnConfig, "openvino_version") == Some(Str(r.value.value))
    ensures Present(nnConfig, "openvino_version") == Some(Str("")) ==> r == Ok(None)
    ensures forall name :: name != "" && Present(nnConfig, "openvino_version") == Some(Str(name)) ==>
              (r.Ok? <==> name in knownVersions)
  {
    var v := Setting(nnConfig, "openvino_version", Str(""));
    if v == Str("") then Ok(None)
    else if v.Str? && v.s in knownVersions then Ok(Some(v.s))
    else if v.Arr? || v.Obj? then Err(TypeError)   // unhashable key
    else Err(KeyError(v))
  }

  /** The six YOLO parameters of `NN_specific_metadata`. */
  datatype YoloMetadata = YoloMetadata(
    classes: Value, coordinates: Value, anchors: Value, anchorMasks: Value,
    iouThreshold: Value, confidenceThreshold: Value)

  /** The YOLO parameters, read in the order the source sets them. */
  function YoloMetadataOf(nnConfig: Value): (r: Result<YoloMetadata>)
    ensures r.Ok? ==> HasKey(nnConfig, "NN_specific_metadata")
    ensures r.Ok? ==> var m := nnConfig.fields["NN_specific_metadata"];
                      HasKey(m, "classes") && r.value.classes == m.fields["classes"]
                      && HasKey(m, "coordinates") && r.value.coordinates == m.fields["coordinates"]
                      && HasKey(m, "anchors") && r.value.anchors == m.fields["anchors"]
                      && HasKey(m, "anchor_masks") && r.value.anchorMasks == m.fields["anchor_masks"]
                      && HasKey(m, "iou_threshold") && r.value.iouThreshold == m.fields["iou_threshold"]
                      && HasKey(m, "confidence_threshold")
                      && r.value.confidenceThreshold == m.fields["confidence_threshold"]
    ensures nnConfig.Obj? && !HasKey(nnConfig, "NN_specific_metadata") ==>
              r == Err(KeyError(Str("NN_specific_metadata")))
  {
    var m :- Subscript(nnConfig, "NN_specific_metadata");
    var classes :- Subscript(m, "classes");
    var coordinates :- Subscript(m, "coordinates");
    var anchors :- Subscript(m, "anchors");
    var masks :- Subscript(m, "anchor_masks");
    var iou :- Subscript(m, "iou_threshold");
    var confidence :- Subscript(m, "confidence_threshold");
    Ok(YoloMetadata(classes, coordinates, anchors, masks, iou, confidence))
  }

  /** The NN-specific settings: the YOLO parameters, or for MobileNet just
      the presence of `confidence_threshold`. */
  function NetworkParameters(nnConfig: Value, yolo: bool): (r: Result<Option<YoloMetadata>>)
    ensures r.Ok? ==> (r.value.Some? <==> yolo)
    ensures yolo ==> (r.Ok? <==> YoloMetadataOf(nnConfig).Ok?)
    ensures yolo && r.Ok? ==> r.value.value == YoloMetadataOf(nnConfig).value
    ensures yolo && r.Err? ==> r.error == YoloMetadataOf(nnConfig).error
    ensures !yolo ==> (r.Ok? <==> HasKey(nnConfig, "confidence_threshold"))
    ensures !yolo && r.Err? ==>
              r.error == if nnConfig.Obj? then KeyError(Str("confidence_threshold")) else TypeError
  {
    if yolo then
      var m :- YoloMetadataOf(nnConfig);
      Ok(Some(m))
    else
      var _ :- Subscript(nnConfig, "confidence_threshold");
      Ok(None)
  }

  /** The depth-only settings of a spatial node. */
  datatype DepthSettings = DepthSettings(bbScaleFactor: Value, lowerThresholdMm: int, upperThresholdMm: int)

  /** What `setupSDN` configures on the detection node it creates. */
  datatype SDNSetup = SDNSetup(
    labels: Value,
    blob: string,
    openvinoVersion: Option<string>,
    inputSize: seq<int>,
    nodeType: NodeType,
    bbFraction: Value,
    yolo: Option<YoloMetadata>,
    confidenceThreshold: real,
    depth: Option<DepthSettings>)

  /** The value `self.bbfraction` starts with. */
  const DefaultBbFraction := Num(0.2)

  /** The steps of `setupSDN` before the input size is read: the labels,
      the `nn_config` section, the blob file and the OpenVINO version. */
  function ConfigureHead(nnJSON: map<string, Value>, blobsPresent: set<string>, knownVersions: set<string>):
    (r: Result<(Value, Value, string, Option<string>)>)
    ensures r.Ok? ==> "nn_config" in nnJSON && r.value.1 == nnJSON["nn_config"] && r.value.1.Obj?
  {
    var mappings :- Subscript(Obj(nnJSON), "mappings");
    var labels :- Subscript(mappings, "labels");
    var nnConfig :- Subscript(Obj(nnJSON), "nn_config");
    var blobValue :- Subscript(nnConfig, "blob");
    var blob :- if blobValue.Str? then Ok(blobValue.s) else Err(TypeError);
    var _ :- if blob in blobsPresent then Ok(()) else Err(FileNotFoundError);
    var version :- OpenvinoVersion(nnConfig, knownVersions);
    Ok((labels, nnConfig, blob, version))
  }

  /** Whether the `nn_config` section of a network file names an input size. */
  predicate NamesInputSize(nnJSON: map<string, Value>) {
    "nn_config" in nnJSON && HasKey(nnJSON["nn_config"], "input_size")
  }

  /** The body of `setupSDN` after the file has been read, step by step in
      source order; each step can raise. `blobsPresent` stands for the
      blob files on disk and `inputSizeOf` for the reading of
      `input_size`. */
  function Configure(nnJSON: map<string, Value>, hasDepth: bool, blobsPresent: set<string>,
                     knownVersions: set<string>, inputSizeOf: Option<Value> -> Result<seq<int>>): Result<SDNSetup>
  {
    var head :- ConfigureHead(nnJSON, blobsPresent, knownVersions);
    var (labels, nnConfig, blob, version) := head;
    var inputSize :- inputSizeOf(Present(nnConfig, "input_size"));
    var family :- Subscript(nnConfig, "NN_family");
    var nodeType :- SelectNodeType(family, hasDepth);
    var bbFraction := Setting(nnConfig, "bb_fraction", DefaultBbFraction);
    var yolo :- NetworkParameters(nnConfig, IsYolo(nodeType));
    // the configured threshold is read, then overridden by a fixed 0.5
    Ok(SDNSetup(labels, blob, version, inputSize, nodeType, bbFraction, yolo, 0.5,
                if hasDepth then Some(DepthSettings(bbFraction, 100, 5000)) else None))
  }

  /** `setupSDN` after the file has been read, with the input size the code
      evidently intends: `(300, 300)` when `input_size` is absent. */
  function SetupFromJson(nnJSON: map<string, Value>, hasDepth: bool, blobsPresent: set<string>,
                         knownVersions: set<string>): (r: Result<SDNSetup>)
    ensures "mappings" !in nnJSON ==> r == Err(KeyError(Str("mappings")))
    ensures r.Ok? ==> "mappings" in nnJSON && HasKey(nnJSON["mappings"], "labels")
                      && r.value.labels == nnJSON["mappings"].fields["labels"]
    ensures r.Ok? ==> "nn_config" in nnJSON && HasKey(nnJSON["nn_config"], "blob")
                      && nnJSON["nn_config"].fields["blob"] == Str(r.value.blob)
                      && r.value.blob in blobsPresent
    ensures r.Ok? ==> var c := nnJSON["nn_config"];
                      r.value.bbFraction == Setting(c, "bb_fraction", DefaultBbFraction)
                      && InputSize(Present(c, "input_size")) == Ok(r.value.inputSize)
                      && HasKey(c, "NN_family")
                      && SelectNodeType(c.fields["NN_family"], hasDepth) == Ok(r.value.nodeType)
                      && OpenvinoVersion(c, knownVersions) == Ok(r.value.openvinoVersion)
                      && NetworkParameters(c, IsYolo(r.value.nodeType)) == Ok(r.value.yolo)
    ensures r.Ok? ==> (IsSpatial(r.value.nodeType) <==> hasDepth)
    ensures r.Ok? ==> (r.value.yolo.Some? <==> IsYolo(r.value.nodeType))
    ensures r.Ok? ==> r.value.confidenceThreshold == 0.5
    ensures r.Ok? ==> (r.value.depth.Some? <==> hasDepth)
    ensures r.Ok? && hasDepth ==> r.value.depth == Some(DepthSettings(r.value.bbFraction, 100, 5000))
    ensures ConfigureHead(nnJSON, blobsPresent, knownVersions).Err? ==>
              r == Err(ConfigureHead(nnJSON, blobsPresent, knownVersions).error)
    // a file whose every step succeeds configures a node
    ensures ConfigureHead(nnJSON, blobsPresent, knownVersions).Ok? ==>
              var c := nnJSON["nn_config"];
              InputSize(Present(c, "input_size")).Ok?
              && HasKey(c, "NN_family")
              && SelectNodeType(c.fields["NN_family"], hasDepth).Ok?
              && NetworkParameters(c, IsYolo(SelectNodeType(c.fields["NN_family"], hasDepth).value)).Ok? ==>
                r.Ok?
  {
    Configure(nnJSON, hasDepth, blobsPresent, knownVersions, InputSize)
  }

  /** `setupSDN` after the file has been read, as written: without
      `input_size`, `nnConfig.get("input_size")` is `None`, whose `.split`
      raises AttributeError past the `except KeyError`. Otherwise it agrees
      with the intended version. */
  function SetupFromJsonAsWritten(nnJSON: map<string, Value>, hasDepth: bool, blobsPresent: set<string>,
                                  knownVersions: set<string>): (r: Result<SDNSetup>)
    ensures r.Ok? ==> r == SetupFromJson(nnJSON, hasDepth, blobsPresent, knownVersions)
    ensures SetupFromJson(nnJSON, hasDepth, blobsPresent, knownVersions).Err? ==> r.Err?
    ensures SetupFromJson(nnJSON, hasDepth, blobsPresent, knownVersions).Ok? ==>
              (r.Ok? <==> HasKey(nnJSON["nn_config"], "input_size"))
    ensures SetupFromJson(nnJSON, hasDepth, blobsPresent, knownVersions).Ok?
            && !HasKey(nnJSON["nn_config"], "input_size") ==>
              r == Err(AttributeError)
    // the error raised: the first step's before the input size, else the `.split` on None
    ensures NamesInputSize(nnJSON) ==> r == SetupFromJson(nnJSON, hasDepth, blobsPresent, knownVersions)
    ensures !NamesInputSize(nnJSON) ==>
              var head := ConfigureHead(nnJSON, blobsPresent, knownVersions);
              r == Err(if head.Err? then head.error else AttributeError)
  {
    Configure(nnJSON, hasDepth, blobsPresent, knownVersions, InputSizeAsWritten)
  }

  /** `setupSDN()`: no network file means no detection node (depth only);
      otherwise the file is read and the node configured. A file that
      cannot be opened or is not an object reads as `{}` and so fails on
      its missing `mappings`. */
  function SetupSDN(nnFile: Option<ConfigSource>, hasDepth: bool, blobsPresent: set<string>,
                    knownVersions: set<string>): (r: Result<Option<SDNSetup>>)
    ensures nnFile.None? ==> r == Ok(None)
    ensures nnFile.Some? && r.Ok? ==> r.value.Some?
    ensures nnFile == Some(NotJson) ==> r == Err(ValueError)
    ensures nnFile.Some? && (nnFile.value.Unopenable? || (nnFile.value.Parsed? && !nnFile.value.json.Obj?)) ==>
              r == Err(KeyError(Str("mappings")))
    ensures nnFile.Some? && r.Ok? ==>
              nnFile.value.Parsed? && nnFile.value.json.Obj?
              && SetupFromJson(nnFile.value.json.fields, hasDepth, blobsPresent, knownVersions) == Ok(r.value.value)
  {
    if nnFile.None? then Ok(None)
    else
      var nnJSON :- ReadNNConfig(nnFile.value);
      var setup :- SetupFromJson(nnJSON, hasDepth, blobsPresent, knownVersions);
      Ok(Some(setup))
  }

  /** `setupSDN()` as written: a file without `input_size` raises
      AttributeError where the intended version defaults to 300x300. */
  function SetupSDNAsWritten(nnFile: Option<ConfigSource>, hasDepth: bool, blobsPresent: set<string>,
                             knownVersions: set<string>): (r: Result<Option<SDNSetup>>)
    ensures r.Ok? ==> r == SetupSDN(nnFile, hasDepth, blobsPresent, knownVersions)
    ensures SetupSDN(nnFile, hasDepth, blobsPresent, knownVersions).Err? ==> r.Err?
    ensures SetupSDN(nnFile, hasDepth, blobsPresent, knownVersions).Ok? && nnFile.Some?
            && !HasKey(nnFile.value.json.fields["nn_config"], "input_size") ==>
              r == Err(AttributeError)
    ensures SetupSDN(nnFile, hasDepth, blobsPresent, knownVersions).Ok?
            && (nnFile.None? || HasKey(nnFile.value.json.fields["nn_config"], "input_size")) ==>
              r == SetupSDN(nnFile, hasDepth, blobsPresent, knownVersions)
    ensures nnFile.None? || ReadNNConfig(nnFile.value).Err? || NamesInputSize(ReadNNConfig(nnFile.value).value) ==>
              r == SetupSDN(nnFile, hasDepth, blobsPresent, knownVersions)
    ensures nnFile.Some? && ReadNNConfig(nnFile.value).Ok? && !NamesInputSize(ReadNNConfig(nnFile.value).value) ==>
              var head := ConfigureHead(ReadNNConfig(nnFile.value).value, blobsPresent, knownVersions);
              r == Err(if head.Err? then head.error else AttributeError)
  {
    if nnFile.None? then Ok(None)
    else
      var nnJSON :- ReadNNConfig(nnFile.value);
      var setup :- SetupFromJsonAsWritten(nnJSON, hasDepth, blobsPresent, knownVersions);
      Ok(Some(setup))
  }

}

=== FILE: config_manager.dfy ===
/** ConfigManager.py: a JSON settings file read through a table of
    (name, default, message-if-missing) entries, and the three settings
    files built on it (frc.json, nn.json, mv.json). */
module ConfigManager {

  import opened Json
  import opened Results
  import opened Numeric
  import opened Text

  /** What opening and parsing a settings file produced. */
  datatype ConfigSource =
    | Unopenable(reason: string)   // `open` raised an OSError
    | NotJson                      // `json.load` raised (a ValueError)
    | Parsed(json: Value)

  /** One row of a configuration table: the key, the value kept when the
      key is absent, and the message of the error a missing key raises
      (None: the key is optional). */
  datatype Entry = Entry(name: string, fallback: Value, mess: Option<string>)

  /** The value a table entry ends up with: the file's value when the key
      is there, the fallback otherwise. */
  function Setting(scope: Value, name: string, fallback: Value): (v: Value)
    ensures HasKey(scope, name) ==> v == scope.fields[name]
    ensures !HasKey(scope, name) ==> v == fallback
  {
    if HasKey(scope, name) then scope.fields[name] else fallback
  }

  /** `config.get(name)`: the value when the key is there. */
  function Present(scope: Value, name: string): (v: Option<Value>)
    ensures v.Some? <==> HasKey(scope, name)
    ensures v.Some? ==> v.value == scope.fields[name]
  {
    if HasKey(scope, name) then Some(scope.fields[name]) else None
  }

  /** An entry the scope satisfies: its key is there or it is optional. */
  predicate Satisfied(scope: Value, e: Entry) {
    HasKey(scope, e.name) || e.mess.None?
  }

  /** The message ConfigManager.py:60 means to raise for a missing
      required key. */
  function ConfigError(file: string, mess: string): Exception {
    Raised("config error in '" + file + "': " + mess)
  }

  /** The entry loop: each entry in table order takes the scope's value or
      keeps its fallback; the first missing required entry raises
      `missing(message)`. Any failure of `j[name]` counts as missing (the
      source catches every exception there). */
  function ApplyEntries(scope: Value, table: seq<Entry>, missing: string -> Exception): (r: Result<seq<Value>>)
    ensures r.Ok? <==> forall i :: 0 <= i < |table| ==> Satisfied(scope, table[i])
    ensures r.Ok? ==> |r.value| == |table|
    ensures r.Ok? ==> forall i :: 0 <= i < |table| ==>
                        r.value[i] == Setting(scope, table[i].name, table[i].fallback)
    ensures r.Err? ==> exists i :: 0 <= i < |table| && !Satisfied(scope, table[i])
                        && r.error == missing(table[i].mess.value)
                        && forall k :: 0 <= k < i ==> Satisfied(scope, table[k])
    decreases |table|
  {
    if |table| == 0 then Ok([])
    else
      var e := table[0];
      if !Satisfied(scope, e) then Err(missing(e.mess.value))
      else
        var rest :- ApplyEntries(scope, table[1..], missing);
        Ok([Setting(scope, e.name, e.fallback)] + rest)
  }

  /** Everything before the entry loop: opening and parsing the file, the
      top-level object check and the optional drill-down key. */
  function Scope(file: string, src: ConfigSource, drillDown: Option<string>): (r: Result<Value>)
    ensures r.Ok? <==> src.Parsed? && src.json.Obj?
                       && (drillDown.None? || drillDown.value in src.json.fields)
    ensures r.Ok? ==> r.value == if drillDown.None? then src.json else src.json.fields[drillDown.value]
    ensures src.Unopenable? ==> r == Err(Raised("could not open '" + file + "': " + src.reason))
    ensures src.NotJson? ==> r == Err(ValueError)
    ensures src.Parsed? && !src.json.Obj? ==> r == Err(Raised("must be JSON object"))
    ensures src.Parsed? && src.json.Obj? && drillDown.Some? && drillDown.value !in src.json.fields ==>
              r == Err(KeyError(Str(drillDown.value)))
  {
    match src
    case Unopenable(reason) => Err(Raised("could not open '" + file + "': " + reason))
    case NotJson => Err(ValueError)
    case Parsed(j) =>
      if !j.Obj? then Err(Raised("must be JSON object"))
      else if drillDown.None? then Ok(j)
      else Subscript(j, drillDown.value)
  }

  /** `ConfigManager.__init__` with the error message the source evidently
      intends for a missing required key. */
  function Load(file: string, src: ConfigSource, table: seq<Entry>, drillDown: Option<string>): (r: Result<seq<Value>>)
    ensures Scope(file, src, drillDown).Err? ==> r == Err(Scope(file, src, drillDown).error)
    ensures Scope(file, src, drillDown).Ok? ==>
              var scope := Scope(file, src, drillDown).value;
              (r.Ok? <==> forall i :: 0 <= i < |table| ==> Satisfied(scope, table[i]))
    ensures r.Ok? ==> Scope(file, src, drillDown).Ok? && |r.value| == |table|
    ensures r.Ok? ==> var scope := Scope(file, src, drillDown).value;
                      forall i :: 0 <= i < |table| ==>
                        r.value[i] == Setting(scope, table[i].name, table[i].fallback)
    ensures r.Err? && Scope(file, src, drillDown).Ok? ==>
              var scope := Scope(file, src, drillDown).value;
              exists i :: 0 <= i < |table| && !Satisfied(scope, table[i])
                && r.error == ConfigError(file, table[i].mess.value)
                && forall k :: 0 <= k < i ==> Satisfied(scope, table[k])
  {
    var scope :- Scope(file, src, drillDown);
    ApplyEntries(scope, table, mess => ConfigError(file, mess))
  }

  /** `ConfigManager.__init__` as written: `entry['mess'].value` on a plain
      string raises AttributeError, so the message is lost. */
  function LoadAsWritten(file: string, src: ConfigSource, table: seq<Entry>, drillDown: Option<string>): (r: Result<seq<Value>>)
    ensures r.Ok? <==> Load(file, src, table, drillDown).Ok?
    ensures r.Ok? ==> r == Load(file, src, table, drillDown)
    ensures Scope(file, src, drillDown).Err? ==> r == Load(file, src, table, drillDown)
    ensures r.Err? && Scope(file, src, drillDown).Ok? ==> r.error == AttributeError
  {
    var scope :- Scope(file, src, drillDown);
    SameEntriesWhateverTheMessage(scope, table, mess => AttributeError, mess => ConfigError(file, mess));
    ApplyEntries(scope, table, mess => AttributeError)
  }

  /** The error an entry loop raises does not affect what it returns when
      every entry is satisfied. */
  lemma SameEntriesWhateverTheMessage(scope: Value, table: seq<Entry>, m1: string -> Exception, m2: string -> Exception)
    ensures ApplyEntries(scope, table, m1).Ok? ==> ApplyEntries(scope, table, m1) == ApplyEntries(scope, table, m2)
  {
    var a, b := ApplyEntries(scope, table, m1), ApplyEntries(scope, table, m2);
    if a.Ok? {
      assert a.value == b.value;
    }
  }

  // ---------------------------------------------------------------- frc.json

  const FRCFile := "/boot/frc.json"

  const FRCTable := [
    Entry("team", Num(0.0), Some("Could not read team number")),
    Entry("hasDisplay", Bool(false), None),
    Entry("ntmode", Str("client"), None),
    Entry("LaserDotProjectorCurrent", Num(0.0), None)
  ]

  datatype FRCConfig = FRCConfig(team: Value, hasDisplay: Value, server: bool, laserDotProjectorCurrent: real)

  /** `ntmode` is either "client" or "server". */
  function ParseNtMode(v: Value): (server: Result<bool>)
    ensures server == Ok(true) <==> v == Str("server")
    ensures server == Ok(false) <==> v == Str("client")
    ensures server.Err? ==> server.error == RaisedAbout("could not understand ntmode value '", v, "'")
  {
    if v == Str("client") then Ok(false)
    else if v == Str("server") then Ok(true)
    else Err(RaisedAbout("could not understand ntmode value '", v, "'"))
  }

  /** `FRCConfig(FRC_FILE)`: the team number is required, network-tables
      mode defaults to client, the laser current is converted to a float. */
  function LoadFRCConfig(src: ConfigSource): (r: Result<FRCConfig>)
    ensures r.Ok? ==> src.Parsed? && HasKey(src.json, "team") && r.value.team == src.json.fields["team"]
    ensures r.Ok? ==> r.value.hasDisplay == Setting(src.json, "hasDisplay", Bool(false))
    ensures r.Ok? ==> (r.value.server <==> HasKey(src.json, "ntmode") && src.json.fields["ntmode"] == Str("server"))
    ensures r.Ok? ==> AsNumber(Setting(src.json, "LaserDotProjectorCurrent", Num(0.0))) == Ok(r.value.laserDotProjectorCurrent)
    ensures src.Parsed? && HasKey(src.json, "team") && !HasKey(src.json, "ntmode")
            && !HasKey(src.json, "LaserDotProjectorCurrent") ==>
              r.Ok? && !r.value.server && r.value.laserDotProjectorCurrent == 0.0
    ensures src.Parsed? && src.json.Obj? && !HasKey(src.json, "team") ==>
              r == Err(ConfigError(FRCFile, "Could not read team number"))
    ensures src.Parsed? && HasKey(src.json, "ntmode")
            && src.json.fields["ntmode"] != Str("client") && src.json.fields["ntmode"] != Str("server") ==>
              r.Err?
    // a team number, a known mode and a numeric laser current always load
    ensures src.Parsed? && HasKey(src.json, "team")
            && Setting(src.json, "ntmode", Str("client")) in {Str("client"), Str("server")}
            && AsNumber(Setting(src.json, "LaserDotProjectorCurrent", Num(0.0))).Ok? ==>
              r.Ok?
  {
    var vals :- Load(FRCFile, src, FRCTable, None);
    var server :- ParseNtMode(vals[2]);
    var laser :- AsNumber(vals[3]);
    Ok(FRCConfig(vals[0], vals[1], server, laser))
  }

  /** `FRCConfig(FRC_FILE)` as written: it agrees with the intended reader
      except that a missing team number raises AttributeError. */
  function LoadFRCConfigAsWritten(src: ConfigSource): (r: Result<FRCConfig>)
    ensures src.Parsed? && src.json.Obj? && !HasKey(src.json, "team") ==> r == Err(AttributeError)
    ensures !(src.Parsed? && src.json.Obj? && !HasKey(src.json, "team")) ==> r == LoadFRCConfig(src)
  {
    var vals :- LoadAsWritten(FRCFile, src, FRCTable, None);
    var server :- ParseNtMode(vals[2]);
    var laser :- AsNumber(vals[3]);
    Ok(FRCConfig(vals[0], vals[1], server, laser))
  }

  // ----------------------------------------------------------------- nn.json

  const NNFile := "/boot/nn.json"

  /** The class-level default `(300, 300)`: a tuple, which has no `split`. */
  const TupleDefault := Arr([Num(300.0), Num(300.0)])

  const NNTable := [
    Entry("bb_fraction", Str("bb_fraction"), None),
    Entry("input_size", TupleDefault, None),
    Entry("NN_family", Str(""), None)
  ]

  datatype NNConfig = NNConfig(bbFraction: Value, inputSize: seq<int>, nnFamily: Value)

  /** `tuple(map(int, v.split('x')))`: only a string can be split, and
      every piece must be a decimal integer. */
  function ParseInputSize(v: Value): (r: Result<seq<int>>)
    ensures !v.Str? ==> r == Err(AttributeError)
    ensures v.Str? ==> (r.Ok? <==> forall i :: 0 <= i < |Split(v.s, 'x')| ==> ParseInt(Split(v.s, 'x')[i]).Ok?)
    ensures r.Ok? ==> v.Str? && |r.value| == |Split(v.s, 'x')|
    ensures r.Ok? ==> forall i :: 0 <= i < |r.value| ==> ParseInt(Split(v.s, 'x')[i]) == Ok(r.value[i])
    ensures r.Err? && v.Str? ==> r.error == ValueError
  {
    if v.Str? then
      var parts := Split(v.s, 'x');
      var r := MapAll(parts, ParseInt);
      assert (forall i :: 0 <= i < |parts| ==> ParseInt(parts[i]).Ok?) ==> r.Ok?;
      r
    else Err(AttributeError)
  }

  /** The input size the code evidently intends: parsed when the key is
      there, `(300, 300)` when it is not. */
  function InputSize(present: Option<Value>): (r: Result<seq<int>>)
    ensures present.None? ==> r == Ok([300, 300])
    ensures present.Some? ==> r == ParseInputSize(present.value)
    ensures present.Some? && r.Ok? ==> present.value.Str? && |r.value| == |Split(present.value.s, 'x')|
    ensures present.Some? && !present.value.Str? ==> r == Err(AttributeError)
  {
    match present
    case None => Ok([300, 300])
    case Some(v) => ParseInputSize(v)
  }

  /** The input size as written: an absent key leaves a non-string
      (the `(300, 300)` tuple in NNConfig, `None` from `dict.get` in
      `setupSDN`), and `.split` raises AttributeError, which the
      surrounding `except KeyError` does not catch. */
  function InputSizeAsWritten(present: Option<Value>): (r: Result<seq<int>>)
    ensures present.None? ==> r == Err(AttributeError)
    ensures present.Some? ==> r == InputSize(present)
  {
    match present
    case None => ParseInputSize(TupleDefault)
    case Some(v) => ParseInputSize(v)
  }

  lemma NoSeparatorInDecimal(i: int)
    ensures 'x' !in IntToDecimal(i)
  {
  }

  /** `"<w>x<h>"` parses back to `(w, h)`. */
  lemma {:induction false} InputSizeRoundTrip(w: int, h: int)
    ensures InputSize(Some(Str(IntToDecimal(w) + "x" + IntToDecimal(h)))) == Ok([w, h])
  {
    var a, b := IntToDecimal(w), IntToDecimal(h);
    NoSeparatorInDecimal(w);
    NoSeparatorInDecimal(h);
    SplitAtFirstSeparator(a, 'x', b);
    SplitWithoutSeparator(b, 'x');
    assert Split(a + "x" + b, 'x') == [a, b];
    ParseIntRoundTrip(w);
    ParseIntRoundTrip(h);
    var parts := Split(a + "x" + b, 'x');
    assert ParseInt(parts[0]) == Ok(w) && ParseInt(parts[1]) == Ok(h);
    var r := ParseInputSize(Str(a + "x" + b));
    assert r.Ok?;
    assert r.value == [w, h];
  }

  /** `NNConfig(NN_FILE)`, with the evidently intended input-size default. */
  function LoadNNConfig(src: ConfigSource): (r: Result<NNConfig>)
    ensures Scope(NNFile, src, Some("nn_config")).Err? ==>
              r == Err(Scope(NNFile, src, Some("nn_config")).error)
    ensures r.Ok? ==> Scope(NNFile, src, Some("nn_config")).Ok?
    ensures r.Ok? ==> var scope := Scope(NNFile, src, Some("nn_config")).value;
                      r.value.bbFraction == Setting(scope, "bb_fraction", Str("bb_fraction"))
                      && r.value.nnFamily == Setting(scope, "NN_family", Str(""))
                      && InputSize(Present(scope, "input_size")) == Ok(r.value.inputSize)
    ensures Scope(NNFile, src, Some("nn_config")).Ok?
            && !HasKey(Scope(NNFile, src, Some("nn_config")).value, "input_size") ==>
              r.Ok? && r.value.inputSize == [300, 300]
    // every entry is optional, so only the input size can fail once the section is there
    ensures Scope(NNFile, src, Some("nn_config")).Ok?
            && InputSize(Present(Scope(NNFile, src, Some("nn_config")).value, "input_size")).Ok? ==>
              r.Ok?
  {
    var vals :- Load(NNFile, src, NNTable, Some("nn_config"));
    var scope := Scope(NNFile, src, Some("nn_config")).value;
    var size :- InputSize(Present(scope, "input_size"));
    Ok(NNConfig(vals[0], size, vals[2]))
  }

  /** `NNConfig(NN_FILE)` as written: the absent `input_size` keeps the
      tuple default, whose `.split` raises. */
  function LoadNNConfigAsWritten(src: ConfigSource): (r: Result<NNConfig>)
    ensures Scope(NNFile, src, Some("nn_config")).Err? ==>
              r == Err(Scope(NNFile, src, Some("nn_config")).error)
    ensures Scope(NNFile, src, Some("nn_config")).Ok?
            && !HasKey(Scope(NNFile, src, Some("nn_config")).value, "input_size") ==>
              r == Err(AttributeError)
    ensures Scope(NNFile, src, Some("nn_config")).Ok?
            && HasKey(Scope(NNFile, src, Some("nn_config")).value, "input_size") ==>
              r == LoadNNConfig(src)
  {
    var vals :- Load(NNFile, src, NNTable, Some("nn_config"));
    var size :- ParseInputSize(vals[1]);
    Ok(NNConfig(vals[0], size, vals[2]))
  }

  // ----------------------------------------------------------------- mv.json

  const MVFile := "/boot/mv.json"

  const MVTable := [
    Entry("cameras", Arr([]), None),
    Entry("tagFamily", Str("tag36h11"), None),
    Entry("tagSize", Num(0.1651), None),
    Entry("CAMERA_FPS", Num(25.0), None),
    Entry("DS_SUBSAMPLING", Num(4.0), None),
    Entry("PREVIEW_WIDTH", Num(200.0), None),
    Entry("PREVIEW_HEIGHT", Num(200.0), None),
    Entry("DS_SCALE", Num(0.5), None),
    Entry("showPreview", Bool(false), None)
  ]

  datatype MVConfig = MVConfig(
    cameras: Value, tagFamily: Value, tagSize: Value, cameraFps: Value,
    dsSubsampling: Value, previewWidth: Value, previewHeight: Value,
    dsScale: Value, showPreview: Value)

  /** `MVConfig(MV_FILE)`: every setting is optional. */
  function LoadMVConfig(src: ConfigSource): (r: Result<MVConfig>)
    ensures r.Ok? <==> Scope(MVFile, src, None).Ok?
    ensures r.Ok? ==> var j := src.json;
                      r.value.cameras == Setting(j, "cameras", Arr([]))
                      && r.value.tagFamily == Setting(j, "tagFamily", Str("tag36h11"))
                      && r.value.tagSize == Setting(j, "tagSize", Num(0.1651))
                      && r.value.cameraFps == Setting(j, "CAMERA_FPS", Num(25.0))
                      && r.value.dsSubsampling == Setting(j, "DS_SUBSAMPLING", Num(4.0))
                      && r.value.previewWidth == Setting(j, "PREVIEW_WIDTH", Num(200.0))
                      && r.value.previewHeight == Setting(j, "PREVIEW_HEIGHT", Num(200.0))
                      && r.value.dsScale == Setting(j, "DS_SCALE", Num(0.5))
                      && r.value.showPreview == Setting(j, "showPreview", Bool(false))
  {
    var v :- Load(MVFile, src, MVTable, None);
    Ok(MVConfig(v[0], v[1], v[2], v[3], v[4], v[5], v[6], v[7], v[8]))
  }

  /** A camera entry whose `mxid` is the one asked for. */
  predicate Matches(cam: Value, mxid: string) {
    HasKey(cam, "mxid") && cam.fields["mxid"] == Str(mxid)
  }

  /** A camera entry that has an `mxid`, but not the one asked for. */
  predicate Mismatches(cam: Value, mxid: string) {
    HasKey(cam, "mxid") && cam.fields["mxid"] != Str(mxid)
  }

  /** The `for cam in cameras` loop over a list: the first entry with the
      wanted `mxid`; an entry before it without an `mxid` raises. */
  function FirstMatch(cams: seq<Value>, mxid: string): (r: Result<Option<Value>>)
    ensures r.Ok? && r.value.Some? ==>
              exists i :: 0 <= i < |cams| && cams[i] == r.value.value && Matches(cams[i], mxid)
                && forall k :: 0 <= k < i ==> Mismatches(cams[k], mxid)
    ensures r == Ok(None) <==> forall i :: 0 <= i < |cams| ==> Mismatches(cams[i], mxid)
    ensures r.Err? ==>
              exists i :: 0 <= i < |cams| && !HasKey(cams[i], "mxid")
                && Subscript(cams[i], "mxid") == Err(r.error)
                && forall k :: 0 <= k < i ==> Mismatches(cams[k], mxid)
    decreases |cams|
  {
    if |cams| == 0 then Ok(None)
    else
      var id :- Subscript(cams[0], "mxid");
      if id == Str(mxid) then Ok(Some(cams[0]))
      else
        var rest := FirstMatch(cams[1..], mxid);
        assert forall i :: 1 <= i < |cams| ==> cams[i] == cams[1..][i - 1];
        rest
  }

  /** `MVConfig.getCamera(mxid)`: the camera entry for a device, None when
      no entry names it. Iterating over anything but a list visits strings
      or fails, so only an empty object or string yields None. */
  function GetCamera(c: MVConfig, mxid: string): (r: Result<Option<Value>>)
    ensures c.cameras.Arr? ==> r == FirstMatch(c.cameras.items, mxid)
    ensures r.Ok? && r.value.Some? ==> c.cameras.Arr? && r.value.value in c.cameras.items
                                       && Matches(r.value.value, mxid)
    ensures c.cameras.Arr? && r == Ok(None) ==>
              forall i :: 0 <= i < |c.cameras.items| ==> Mismatches(c.cameras.items[i], mxid)
    ensures c.cameras.Arr? && (exists i :: 0 <= i < |c.cameras.items| && Matches(c.cameras.items[i], mxid)
                                && forall k :: 0 <= k < i ==> Mismatches(c.cameras.items[k], mxid)) ==>
              r.Ok? && r.value.Some?
    ensures !c.cameras.Arr? ==>
              (r.Ok? <==> c.cameras == Obj(map[]) || c.cameras == Str("")) && (r.Ok? ==> r.value.None?)
    ensures r.Err? && !c.cameras.Arr? ==> r.error == TypeError
  {
    match c.cameras
    case Arr(items) => FirstMatch(items, mxid)
    case Obj(fields) => if fields == map[] then Ok(None) else Err(TypeError)
    case Str(s) => if s == "" then Ok(None) else Err(TypeError)
    case _ => Err(TypeError)
  }

  /** The missing-team-number example of the lost message: an empty
      frc.json should report the team number, but raises AttributeError. */
  lemma MissingTeamMessageLost()
    ensures var src := Parsed(Obj(map[]));
            Load(FRCFile, src, FRCTable, None) == Err(ConfigError(FRCFile, "Could not read team number"))
            && LoadAsWritten(FRCFile, src, FRCTable, None) == Err(AttributeError)
            && LoadFRCConfigAsWritten(src) == Err(AttributeError)
  {
  }

  /** The missing-input-size example: an empty `nn_config` section should
      give a 300x300 input, but raises AttributeError. */
  lemma MissingInputSizeDefaultLost()
    ensures var src := Parsed(Obj(map["nn_config" := Obj(map[])]));
            LoadNNConfig(src) == Ok(NNConfig(Str("bb_fraction"), [300, 300], Str("")))
            && LoadNNConfigAsWritten(src) == Err(AttributeError)
  {
  }

}

=== FILE: detections.dfy ===
/** Detections.py: turning one batch of raw detections into the records
    that are published for a camera. Drawing on the frame (text, boxes,
    circles) is a side channel and is not modelled; everything that decides
    the records, or whether building them raises, is.

    `cm.nnConfig.inputSize`, a module-level global of the program, is an
    explicit `inputSize` parameter here. */
module Detections {

  import opened Json
  import opened Results
  import opened Numeric
  import opened Frames
  import opened Geometry
  import opened Detector
  import opened SpatialOrder

  const InchesPerMillimetre: real := 0.0393701

  /** `round(confidence, 2)`. Python rounds the binary double half to even;
      that rounding is kept symbolic. */
  datatype Confidence = Rounded2(raw: real)

  /** The published x, y, z: whole inches on the spatial path, pixel centre
      and radius on the 2-D path. */
  datatype Position =
    | Inches(inchX: int, inchY: int, inchZ: int)
    | Pixels(centreX: real, centreY: real, radius: real)

  /** One published object, `{"objectLabel", "x", "y", "z", "confidence"}`. */
  datatype DetectionRecord = DetectionRecord(objectLabel: Value, position: Position, confidence: Confidence)

  /** The `Detections(bbfraction, LABELS)` object: the inner-box fraction and
      the label table (`mappings.labels` of the network's JSON file). */
  datatype Detections = Detections(bbfraction: Value, labels: Value)

  /** A mapped bounding box with its corners truncated to whole pixels. */
  datatype PixelBox = PixelBox(xmin: int, ymin: int, xmax: int, ymax: int)

  /** `round(int(mm * INCHES_PER_MILLIMETER), 1)`: the exact inch value
      truncated toward zero; `round(n, 1)` of a Python int is `n` itself. */
  function InchesOf(mm: real): (n: int)
    ensures 0.0 <= mm ==> 0 <= n && n as real <= mm * InchesPerMillimetre < n as real + 1.0
    ensures mm < 0.0 ==> n <= 0 && n as real - 1.0 < mm * InchesPerMillimetre <= n as real
  {
    Trunc(mm * InchesPerMillimetre)
  }

  /** 254 mm is 10.0000054 exact inches, so it is published as 10. */
  lemma InchesExample()
    ensures InchesOf(254.0) == 10
    ensures InchesOf(-254.0) == -10
    ensures InchesOf(25.0) == 0
  {
  }

  /** `self.LABELS[detection.label]`. The table is a JSON list: an index past
      its end raises IndexError, which the program's `except KeyError` does
      not catch. A dict table raises KeyError for the integer key, a string
      yields one character, anything else is not subscriptable. */
  function LookupLabel(labels: Value, labelId: nat): (r: Result<Value>)
    ensures labels.Arr? ==> (r.Ok? <==> labelId < |labels.items|)
    ensures labels.Arr? && r.Ok? ==> r.value == labels.items[labelId]
    ensures labels.Arr? && r.Err? ==> r.error == IndexError
    ensures labels.Obj? ==> r.Err?
    ensures r.Ok? ==> labels.Arr? || labels.Str?
  {
    match labels
    case Arr(items) => if labelId < |items| then Ok(items[labelId]) else Err(IndexError)
    case Str(s) => if labelId < |s| then Ok(Str([s[labelId]])) else Err(IndexError)
    case Obj(_) => Err(KeyError(Num(labelId as real)))
    case _ => Err(TypeError)
  }

  /** The detection's normalised box (`dai.Rect` from its two corners). */
  function NormalisedBox(d: RawDetection): Rect {
    FromCorners(Point(d.xmin, d.ymin), Point(d.xmax, d.ymax))
  }

  /** The normalised box denormalised to network-input pixels and mapped to
      the frame, before its corners are truncated. */
  function FrameRect(d: RawDetection, inputSize: seq<int>, shape: Shape): Result<Rect>
    requires |inputSize| >= 2
  {
    MapToFrame(Denormalize(NormalisedBox(d), inputSize[0], inputSize[1]), inputSize, shape)
  }

  /** The bounding box of one detection in frame pixels (Detections.py:49-59
      and 131-141): built from the normalised corners, denormalised with
      `inputSize[0]` as the width and `inputSize[1]` as the height, mapped to
      the frame (which unpacks `inputSize` as `(height, width)`), and its
      corners truncated toward zero. */
  function DetectionBox(d: RawDetection, inputSize: seq<int>, shape: Shape): (r: Result<PixelBox>)
    ensures r.Ok? <==> |inputSize| == 2 && inputSize[0] != 0 && shape.height != 0
    ensures |inputSize| < 2 ==> r == Err(IndexError)
    ensures |inputSize| > 2 ==> r == Err(ValueError)
    // the corners are those of the mapped box, truncated toward zero
    ensures r.Ok? ==> var m := FrameRect(d, inputSize, shape).value;
                      r.value == PixelBox(Trunc(TopLeft(m).x), Trunc(TopLeft(m).y),
                                          Trunc(BottomRight(m).x), Trunc(BottomRight(m).y))
    // mapping the box back to the network input gives the denormalised detection
    ensures r.Ok? ==> UnmapFromFrame(FrameRect(d, inputSize, shape).value, inputSize, shape)
                      == Denormalize(NormalisedBox(d), inputSize[0], inputSize[1])
    // positive NN-input dimensions give an ordered box
    ensures r.Ok? && inputSize[0] > 0 && inputSize[1] >= 0 ==>
              r.value.xmin <= r.value.xmax && r.value.ymin <= r.value.ymax
  {
    if |inputSize| < 2 then Err(IndexError)
    else
      var mapped :- FrameRect(d, inputSize, shape);
      var topLeft, bottomRight := TopLeft(mapped), BottomRight(mapped);
      assert inputSize[0] > 0 && inputSize[1] >= 0 ==>
               Trunc(topLeft.x) <= Trunc(bottomRight.x) && Trunc(topLeft.y) <= Trunc(bottomRight.y) by {
        if inputSize[0] > 0 && inputSize[1] >= 0 {
          var bb := NormalisedBox(d);
          var roi := Denormalize(bb, inputSize[0], inputSize[1]);
          assert 0.0 <= roi.width && 0.0 <= roi.height by {
            assert roi.width == bb.width * inputSize[0] as real;
            assert roi.height == bb.height * inputSize[1] as real;
          }
          TruncMonotone(topLeft.x, bottomRight.x);
          TruncMonotone(topLeft.y, bottomRight.y);
        }
      }
      Ok(PixelBox(Trunc(topLeft.x), Trunc(topLeft.y), Trunc(bottomRight.x), Trunc(bottomRight.y)))
  }

  function MaxInt(a: int, b: int): int { if a <= b then b else a }

  /** One record of the 2-D path (`ProcessOak1Detections`, Detections.py:47-101):
      the centre of the truncated box and half its larger extent, in pixels.
      The box is computed (and can fail) before the label is looked up. */
  function Oak1Record(det: Detections, d: RawDetection, inputSize: seq<int>, shape: Shape): (r: Result<DetectionRecord>)
    ensures r.Ok? <==> DetectionBox(d, inputSize, shape).Ok? && LookupLabel(det.labels, d.labelId).Ok?
    ensures DetectionBox(d, inputSize, shape).Err? ==> r == Err(DetectionBox(d, inputSize, shape).error)
    ensures r.Ok? ==> r.value.objectLabel == LookupLabel(det.labels, d.labelId).value
                      && r.value.confidence == Rounded2(d.confidence)
                      && r.value.position.Pixels?
    // the point is the box centre, the radius half the larger side
    ensures r.Ok? ==>
              var b := DetectionBox(d, inputSize, shape).value;
              var p := r.value.position;
              && p.centreX - b.xmin as real == b.xmax as real - p.centreX
              && p.centreY - b.ymin as real == b.ymax as real - p.centreY
              && (b.xmax - b.xmin) as real <= 2.0 * p.radius
              && (b.ymax - b.ymin) as real <= 2.0 * p.radius
              && (2.0 * p.radius == (b.xmax - b.xmin) as real || 2.0 * p.radius == (b.ymax - b.ymin) as real)
    // for positive NN-input dimensions the centre lies inside the box
    ensures r.Ok? && inputSize[0] > 0 && inputSize[1] >= 0 ==>
              var b := DetectionBox(d, inputSize, shape).value;
              var p := r.value.position;
              b.xmin as real <= p.centreX <= b.xmax as real && b.ymin as real <= p.centreY <= b.ymax as real
              && 0.0 <= p.radius
  {
    var box :- DetectionBox(d, inputSize, shape);
    var objectLabel :- LookupLabel(det.labels, d.labelId);
    var cX := (box.xmin + box.xmax) as real / 2.0;
    var cY := (box.ymin + box.ymax) as real / 2.0;
    var radius := MaxInt(box.xmax - box.xmin, box.ymax - box.ymin) as real / 2.0;
    Ok(DetectionRecord(objectLabel, Pixels(cX, cY, radius), Rounded2(d.confidence)))
  }

  /** The label drawn next to a box (Detections.py:154-158): the table's
      entry, or the raw class index when the lookup raises KeyError. Any
      other failure of the lookup is not caught. */
  function DrawnLabel(labels: Value, labelId: nat): (r: Result<Value>)
    ensures LookupLabel(labels, labelId).Ok? ==> r == LookupLabel(labels, labelId)
    ensures LookupLabel(labels, labelId).Err? && LookupLabel(labels, labelId).error.KeyError? ==>
              r == Ok(Num(labelId as real))
    ensures r.Err? <==> LookupLabel(labels, labelId).Err? && !LookupLabel(labels, labelId).error.KeyError?
    ensures r.Err? ==> r.error == LookupLabel(labels, labelId).error
  {
    match LookupLabel(labels, labelId)
    case Ok(entry) => Ok(entry)
    case Err(e) => if e.KeyError? then Ok(Num(labelId as real)) else Err(e)
  }

  /** One record of the spatial path (Detections.py:124-182): whole inches of
      the spatial coordinates. The pixel box, the drawn label and the inner
      depth box only feed drawing, but they are still computed first, so
      they still fail, in this order: the box as in the 2-D path, the drawn
      label unless its lookup raised KeyError, the inner box when
      `bbfraction` is not a number. Only then is the label looked up again,
      without a handler, for the record. */
  function SpatialRecord(det: Detections, d: RawDetection, inputSize: seq<int>, shape: Shape): (r: Result<DetectionRecord>)
    ensures r.Ok? <==> && DetectionBox(d, inputSize, shape).Ok?
                       && LookupLabel(det.labels, d.labelId).Ok?
                       && AsNumber(det.bbfraction).Ok?
    ensures DetectionBox(d, inputSize, shape).Err? ==> r == Err(DetectionBox(d, inputSize, shape).error)
    // an uncaught first lookup failure comes before the inner box
    ensures DetectionBox(d, inputSize, shape).Ok? && DrawnLabel(det.labels, d.labelId).Err? ==>
              r == Err(LookupLabel(det.labels, d.labelId).error)
    // a KeyError of the first lookup is caught, so the inner box fails first
    ensures DetectionBox(d, inputSize, shape).Ok? && DrawnLabel(det.labels, d.labelId).Ok?
            && AsNumber(det.bbfraction).Err? ==>
              r == Err(TypeError)
    // and the second lookup raises it again
    ensures DetectionBox(d, inputSize, shape).Ok? && AsNumber(det.bbfraction).Ok?
            && LookupLabel(det.labels, d.labelId).Err? ==>
              r == Err(LookupLabel(det.labels, d.labelId).error)
    ensures det.labels.Obj? && DetectionBox(d, inputSize, shape).Ok? && AsNumber(det.bbfraction).Err? ==>
              r == Err(TypeError)
    ensures r.Ok? ==> r.value.objectLabel == LookupLabel(det.labels, d.labelId).value
                      && r.value.confidence == Rounded2(d.confidence)
    ensures r.Ok? ==> r.value.position == Inches(InchesOf(d.spatialCoordinates.x),
                                                 InchesOf(d.spatialCoordinates.y),
                                                 InchesOf(d.spatialCoordinates.z))
  {
    var _ :- DetectionBox(d, inputSize, shape);
    var _ :- DrawnLabel(det.labels, d.labelId);
    var _ :- AsNumber(det.bbfraction);
    var objectLabel :- LookupLabel(det.labels, d.labelId);
    var c := d.spatialCoordinates;
    Ok(DetectionRecord(objectLabel, Inches(InchesOf(c.x), InchesOf(c.y), InchesOf(c.z)), Rounded2(d.confidence)))
  }

  function ShapeOf(frame: Image): Shape {
    Shape(frame.height, frame.width)
  }

  /** `ProcessOak1Detections(detections, frame)`: one record per detection,
      in input order, or the first failure. */
  function ProcessOak1Detections(det: Detections, detections: seq<RawDetection>, frame: Image, inputSize: seq<int>)
    : (r: Result<seq<DetectionRecord>>)
    ensures r.Ok? ==> |r.value| == |detections|
    ensures r.Ok? ==> forall i :: 0 <= i < |detections| ==>
                        Oak1Record(det, detections[i], inputSize, ShapeOf(frame)) == Ok(r.value[i])
    ensures r.Ok? <==> forall i :: 0 <= i < |detections| ==>
                         Oak1Record(det, detections[i], inputSize, ShapeOf(frame)).Ok?
    // a failed batch reports the first failing detection's error
    ensures r.Err? ==> exists i :: 0 <= i < |detections|
                         && Oak1Record(det, detections[i], inputSize, ShapeOf(frame)) == Err(r.error)
                         && forall j :: 0 <= j < i ==> Oak1Record(det, detections[j], inputSize, ShapeOf(frame)).Ok?
  {
    MapAll(detections, d => Oak1Record(det, d, inputSize, ShapeOf(frame)))
  }

  /** `processDetections(detections, frame, depthFrameColor)`: nothing at all
      without a frame; the 2-D path without a false-colour depth frame;
      otherwise the spatial path over the detections sorted by
      `label*100000 + z`. */
  function ProcessDetections(det: Detections, detections: seq<RawDetection>, frame: Option<Image>,
                             depthFrameColor: Option<Image>, inputSize: seq<int>)
    : (r: Option<Result<seq<DetectionRecord>>>)
    ensures r.None? <==> frame.None?
    // both paths publish exactly one record per detection
    ensures r.Some? && r.value.Ok? ==> |r.value.value| == |detections|
    // without depth, input order is kept
    ensures r.Some? && r.value.Ok? && depthFrameColor.None? ==>
              forall i :: 0 <= i < |detections| ==>
                Oak1Record(det, detections[i], inputSize, ShapeOf(frame.value)) == Ok(r.value.value[i])
    // with depth, the records follow the stably sorted detections
    ensures r.Some? && r.value.Ok? && depthFrameColor.Some? ==>
              var sorted := SortByKey(detections);
              forall i :: 0 <= i < |detections| ==>
                SpatialRecord(det, sorted[i], inputSize, ShapeOf(frame.value)) == Ok(r.value.value[i])
    // a batch fails only because one of its detections does
    ensures r.Some? && r.value.Err? ==>
              (exists i :: 0 <= i < |detections|
                 && (if depthFrameColor.None? then Oak1Record(det, detections[i], inputSize, ShapeOf(frame.value)).Err?
                     else SpatialRecord(det, detections[i], inputSize, ShapeOf(frame.value)).Err?))
  {
    if frame.None? then None
    else if depthFrameColor.None? then Some(ProcessOak1Detections(det, detections, frame.value, inputSize))
    else
      var sorted := SortByKey(detections);
      var shape := ShapeOf(frame.value);
      var r := MapAll(sorted, d => SpatialRecord(det, d, inputSize, shape));
      if r.Err? then
        var i :| 0 <= i < |sorted| && SpatialRecord(det, sorted[i], inputSize, shape).Err?;
        SortedElementIsInput(detections, sorted, i);
        Some(r)
      else Some(r)
  }

  lemma SortedElementIsInput(s: seq<RawDetection>, sorted: seq<RawDetection>, i: int)
    requires multiset(sorted) == multiset(s) && 0 <= i < |sorted|
    ensures exists j :: 0 <= j < |s| && s[j] == sorted[i]
  {
    assert sorted[i] in multiset(s);
  }

  /** The spatial path publishes the records of a reordering of the batch
      that is a permutation, non-decreasing in `label*100000 + z`, and
      stable: detections with equal keys keep their input order. */
  lemma {:induction false} SpatialRecordsFollowStableSort(det: Detections, detections: seq<RawDetection>,
                                                          frame: Image, depthFrameColor: Image,
                                                          inputSize: seq<int>, records: seq<DetectionRecord>)
    requires ProcessDetections(det, detections, Some(frame), Some(depthFrameColor), inputSize) == Some(Ok(records))
    ensures exists sorted: seq<RawDetection> ::
              && multiset(sorted) == multiset(detections)
              && Sorted(sorted)
              && (forall k :: WithKey(sorted, k) == WithKey(detections, k))
              && |records| == |sorted|
              && forall i :: 0 <= i < |sorted| ==>
                   SpatialRecord(det, sorted[i], inputSize, ShapeOf(frame)) == Ok(records[i])
  {
    var sorted := SortByKey(detections);
    forall k
      ensures WithKey(sorted, k) == WithKey(detections, k)
    {
      SortIsStable(detections, k);
    }
  }

}

=== FILE: detector.dfy ===
/** What the on-device detection network delivers per object: a class
    label, a normalised bounding box, a confidence and, on a depth camera,
    the object's position relative to the sensor in millimetres. */
module Detector {

  /** `detection.spatialCoordinates`, millimetres. */
  datatype Coordinates = Coordinates(x: real, y: real, z: real)

  /** One `dai.ImgDetection` / `dai.SpatialImgDetection`. `labelId` is the
      device's unsigned class index (`detection.label`). */
  datatype RawDetection = RawDetection(
    labelId: nat,
    confidence: real,
    xmin: real, ymin: real, xmax: real, ymax: real,
    spatialCoordinates: Coordinates)

  /** The spatial path's sort key `label*100000 + spatialCoordinates.z`
      (Detections.py:121). */
  function SortKey(d: RawDetection): real {
    (d.labelId as real) * 100000.0 + d.spatialCoordinates.z
  }

  /** A depth in [0, 100000) mm keeps the key inside its class's band, so
      keys order by class first and depth second. */
  lemma SortKeyBand(d: RawDetection)
    requires 0.0 <= d.spatialCoordinates.z < 100000.0
    ensures (d.labelId as real) * 100000.0 <= SortKey(d) < ((d.labelId + 1) as real) * 100000.0
  {
  }

}

=== FILE: frames.dfy ===
/** Image buffers, reduced to what the modelled code reads of them: their
    dimensions and where their pixels came from. Pixel values are never
    inspected by the modelled logic. */
module Frames {

  /** A raw depth buffer of millimetre distances from the stereo pair. */
  datatype DepthMap = DepthMap(height: nat, width: nat, stamp: nat)

  /** Where an image's pixels come from: a camera stream, or the false-colour
      rendering of a depth buffer. */
  datatype Content = Sensor(stamp: nat) | Colourised(source: DepthMap)

  /** A BGR image; `frame.shape` is `(height, width, 3)`. */
  datatype Image = Image(height: nat, width: nat, content: Content)

  /** The display-only false-colour rendering of a depth buffer (min-max
      normalisation to 8 bits, histogram equalisation, rainbow colour map).
      Its pixel arithmetic is library code and stays symbolic. */
  function Colourise(d: DepthMap): Image {
    Image(d.height, d.width, Colourised(d))
  }

}

=== FILE: geometry.dfy ===
/** Bounding-box geometry of Detections.py: the similarity transform from
    neural-network input pixels to full-frame pixels, and the inner
    "depth-averaging" box.

    The `dai.Rect` and `dai.Point2f` types of the depthai library are not
    part of this model; they are assumed to behave as plain rectangles:
    `Rect(pt1, pt2)` spans the two corners (as `cv::Rect` does),
    `denormalize(w, h)` multiplies x and width by w and y and height by h,
    `topLeft()` is (x, y) and `bottomRight()` is (x + width, y + height). */
module Geometry {

  import opened Results
  import opened Numeric

  datatype Point = Point(x: real, y: real)

  /** A float rectangle: top-left corner and extents. */
  datatype Rect = Rect(x: real, y: real, width: real, height: real)

  /** The first two entries of a numpy `frame.shape`. */
  datatype Shape = Shape(height: nat, width: nat)

  datatype IntPoint = IntPoint(x: int, y: int)

  function Min(a: real, b: real): real { if a <= b then a else b }

  function Max(a: real, b: real): real { if a <= b then b else a }

  /** `dai.Rect(pt1, pt2)`: the rectangle spanned by two opposite corners,
      in whichever order they are given. */
  function FromCorners(pt1: Point, pt2: Point): (r: Rect)
    ensures 0.0 <= r.width && 0.0 <= r.height
    ensures TopLeft(r) == Point(Min(pt1.x, pt2.x), Min(pt1.y, pt2.y))
    ensures BottomRight(r) == Point(Max(pt1.x, pt2.x), Max(pt1.y, pt2.y))
  {
    Rect(Min(pt1.x, pt2.x), Min(pt1.y, pt2.y),
         Max(pt1.x, pt2.x) - Min(pt1.x, pt2.x), Max(pt1.y, pt2.y) - Min(pt1.y, pt2.y))
  }

  function TopLeft(r: Rect): Point { Point(r.x, r.y) }

  function BottomRight(r: Rect): Point { Point(r.x + r.width, r.y + r.height) }

  /** `rect.denormalize(destWidth, destHeight)`. */
  function Denormalize(r: Rect, destWidth: int, destHeight: int): Rect {
    Rect(r.x * destWidth as real, r.y * destHeight as real,
         r.width * destWidth as real, r.height * destHeight as real)
  }

  /** The NN-input-to-frame scale `height / Height` (Detections.py:18). */
  function Scale(inputSize: seq<int>, shape: Shape): real
    requires |inputSize| == 2 && shape.height != 0
  {
    inputSize[0] as real / shape.height as real
  }

  /** `mapDetectionCoordinatesToFrame(roi, inputSize, shape)`. `inputSize` is
      unpacked as `(height, width)`; unpacking anything but a pair raises
      ValueError, and a zero frame height or a zero NN-input height divides
      by zero. Positions are re-centred and scaled, extents only scaled;
      nothing is clipped to the frame. */
  function MapToFrame(roi: Rect, inputSize: seq<int>, shape: Shape): (r: Result<Rect>)
    ensures r.Ok? <==> |inputSize| == 2 && inputSize[0] != 0 && shape.height != 0
    ensures |inputSize| != 2 ==> r == Err(ValueError)
    ensures |inputSize| == 2 && r.Err? ==> r == Err(ZeroDivisionError)
    // the transform loses nothing: the inverse similarity gives the box back
    ensures r.Ok? ==> UnmapFromFrame(r.value, inputSize, shape) == roi
    // the NN-input centre lands on the frame centre
    ensures r.Ok? && roi.x == inputSize[1] as real / 2.0 ==> r.value.x == shape.width as real / 2.0
    ensures r.Ok? && roi.y == inputSize[0] as real / 2.0 ==> r.value.y == shape.height as real / 2.0
    // extents are scaled by one common factor, so the aspect ratio is kept
    ensures r.Ok? ==> r.value.width * roi.height == r.value.height * roi.width
    // with positive heights, extents keep their sign
    ensures r.Ok? && inputSize[0] > 0 ==>
              (0.0 < roi.width <==> 0.0 < r.value.width) && (0.0 < roi.height <==> 0.0 < r.value.height)
              && (0.0 <= roi.width <==> 0.0 <= r.value.width) && (0.0 <= roi.height <==> 0.0 <= r.value.height)
  {
    if |inputSize| != 2 then Err(ValueError)
    else if shape.height == 0 || inputSize[0] == 0 then Err(ZeroDivisionError)
    else
      var height, width := inputSize[0] as real, inputSize[1] as real;
      var Height, Width := shape.height as real, shape.width as real;
      var scale := Scale(inputSize, shape);
      ScaleFacts(inputSize, shape);
      var mapped := Rect(Recentre(roi.x, width / 2.0, scale, Width / 2.0),
                         Recentre(roi.y, height / 2.0, scale, Height / 2.0),
                         roi.width / scale,
                         roi.height / scale);
      Ok(mapped)
  }

  /** `(v - from) / scale + to`: one coordinate moved from one centre to
      another and scaled about it. */
  function Recentre(v: real, from: real, scale: real, to: real): real
    requires scale != 0.0
  {
    (v - from) / scale + to
  }

  lemma ScaleFacts(inputSize: seq<int>, shape: Shape)
    requires |inputSize| == 2 && inputSize[0] != 0 && shape.height != 0
    ensures Scale(inputSize, shape) != 0.0
    ensures inputSize[0] > 0 <==> Scale(inputSize, shape) > 0.0
  {
  }

  /** The inverse similarity: frame pixels back to NN-input pixels. */
  function UnmapFromFrame(r: Rect, inputSize: seq<int>, shape: Shape): Rect
    requires |inputSize| == 2 && inputSize[0] != 0 && shape.height != 0
  {
    var scale := Scale(inputSize, shape);
    Rect((r.x - shape.width as real / 2.0) * scale + inputSize[1] as real / 2.0,
         (r.y - shape.height as real / 2.0) * scale + inputSize[0] as real / 2.0,
         r.width * scale,
         r.height * scale)
  }

  /** Every frame rectangle is the image of exactly one NN-input rectangle:
      mapping the inverse image gives the frame rectangle back. */
  lemma UnmapThenMap(r: Rect, inputSize: seq<int>, shape: Shape)
    requires |inputSize| == 2 && inputSize[0] != 0 && shape.height != 0
    ensures MapToFrame(UnmapFromFrame(r, inputSize, shape), inputSize, shape) == Ok(r)
  {
    var u := UnmapFromFrame(r, inputSize, shape);
    var m := MapToFrame(u, inputSize, shape);
    assert UnmapFromFrame(m.value, inputSize, shape) == u;
    UnmapInjective(m.value, r, inputSize, shape);
  }

  /** Distinct frame rectangles have distinct inverse images. */
  lemma UnmapInjective(a: Rect, b: Rect, inputSize: seq<int>, shape: Shape)
    requires |inputSize| == 2 && inputSize[0] != 0 && shape.height != 0
    requires UnmapFromFrame(a, inputSize, shape) == UnmapFromFrame(b, inputSize, shape)
    ensures a == b
  {
    var scale := Scale(inputSize, shape);
    ScaleFacts(inputSize, shape);
    CancelScale(a.x - shape.width as real / 2.0, b.x - shape.width as real / 2.0, scale);
    CancelScale(a.y - shape.height as real / 2.0, b.y - shape.height as real / 2.0, scale);
    CancelScale(a.width, b.width, scale);
    CancelScale(a.height, b.height, scale);
  }

  lemma CancelScale(a: real, b: real, s: real)
    requires s != 0.0 && a * s == b * s
    ensures a == b
  {
    assert (a - b) * s == 0.0;
  }

  /** When the NN input and the frame have the same aspect ratio, a box edge
      lies outside the NN input exactly when its image lies outside the
      frame: the mapping neither clips nor pulls boxes into view. */
  lemma NoClipping(roi: Rect, inputSize: seq<int>, shape: Shape)
    requires |inputSize| == 2 && inputSize[0] > 0 && shape.height > 0
    requires inputSize[1] * shape.height == shape.width * inputSize[0]
    ensures MapToFrame(roi, inputSize, shape).Ok?
    ensures var m := MapToFrame(roi, inputSize, shape).value;
            && (roi.x < 0.0 <==> m.x < 0.0)
            && (roi.y < 0.0 <==> m.y < 0.0)
            && (roi.x + roi.width > inputSize[1] as real <==> m.x + m.width > shape.width as real)
            && (roi.y + roi.height > inputSize[0] as real <==> m.y + m.height > shape.height as real)
  {
    var h, w := inputSize[0] as real, inputSize[1] as real;
    var H, W := shape.height as real, shape.width as real;
    var scale := Scale(inputSize, shape);
    assert scale == h / H;
    assert w * H == W * h;
    assert w / scale == W by {
      assert w / scale == w * H / h;
    }
    assert h / scale == H;
    AxisNoClip(roi.x, roi.width, w, W, scale);
    AxisNoClip(roi.y, roi.height, h, H, scale);
  }

  /** One axis of `NoClipping`: when the source extent `e` maps onto the
      destination extent `d`, re-centring cancels out and the position is
      only scaled. */
  lemma AxisNoClip(x: real, ext: real, e: real, d: real, s: real)
    requires s > 0.0 && e / s == d
    ensures ((x - e / 2.0) / s + d / 2.0 < 0.0) <==> x < 0.0
    ensures ((x - e / 2.0) / s + d / 2.0 + ext / s > d) <==> x + ext > e
  {
    assert (x - e / 2.0) / s + d / 2.0 == x / s;
    assert x / s + ext / s == (x + ext) / s;
  }

  /** `_average_depth_coord(pt1, pt2, padding_factor)`: the inner box over
      which depth is averaged, shrunk symmetrically so that it keeps the
      `padding_factor` fraction of each extent, its corners truncated
      toward zero. */
  function AverageDepthCoord(pt1: IntPoint, pt2: IntPoint, paddingFactor: real): (r: (IntPoint, IntPoint))
    // for an ordered box and a fraction in [0, 1], the inner box is ordered and lies inside
    ensures pt1.x <= pt2.x && pt1.y <= pt2.y && 0.0 <= paddingFactor <= 1.0 ==>
              && pt1.x <= r.0.x <= r.1.x <= pt2.x
              && pt1.y <= r.0.y <= r.1.y <= pt2.y
    // a fraction of 1 keeps the whole box
    ensures paddingFactor == 1.0 ==> r == (pt1, pt2)
    // a fraction of 0 collapses it onto the centre, up to truncation
    ensures pt1.x <= pt2.x && pt1.y <= pt2.y && paddingFactor == 0.0 ==>
              r.0 == r.1
  {
    var factor := 1.0 - paddingFactor;
    var xShift := (pt2.x - pt1.x) as real * factor / 2.0;
    var yShift := (pt2.y - pt1.y) as real * factor / 2.0;
    AverageDepthFacts(pt1.x, pt2.x, xShift, paddingFactor);
    AverageDepthFacts(pt1.y, pt2.y, yShift, paddingFactor);
    (IntPoint(Trunc(pt1.x as real + xShift), Trunc(pt1.y as real + yShift)),
     IntPoint(Trunc(pt2.x as real - xShift), Trunc(pt2.y as real - yShift)))
  }

  /** One axis of the inner box: the shifted ends stay between the original
      ends and in order, and truncation keeps them there. */
  lemma AverageDepthFacts(a: int, b: int, shift: real, paddingFactor: real)
    requires shift == (b - a) as real * (1.0 - paddingFactor) / 2.0
    ensures a <= b && 0.0 <= paddingFactor <= 1.0 ==>
              a <= Trunc(a as real + shift) <= Trunc(b as real - shift) <= b
    ensures paddingFactor == 1.0 ==> Trunc(a as real + shift) == a && Trunc(b as real - shift) == b
    ensures a <= b && paddingFactor == 0.0 ==> Trunc(a as real + shift) == Trunc(b as real - shift)
  {
    if a <= b && 0.0 <= paddingFactor <= 1.0 {
      assert 0.0 <= shift <= (b - a) as real / 2.0;
      TruncOfInt(a);
      TruncOfInt(b);
      TruncMonotone(a as real, a as real + shift);
      TruncMonotone(a as real + shift, b as real - shift);
      TruncMonotone(b as real - shift, b as real);
    }
    if paddingFactor == 1.0 {
      assert shift == 0.0;
      TruncOfInt(a);
      TruncOfInt(b);
    }
    if a <= b && paddingFactor == 0.0 {
      assert a as real + shift == b as real - shift;
    }
  }

}

=== FILE: json.dfy ===
/** JSON documents as Python's `json` module hands them to the program:
    objects become dicts, arrays become lists. Integers and floats are both
    kept as exact reals; the program never distinguishes them. */
module Json {

  datatype Value =
    | Null
    | Bool(b: bool)
    | Num(n: real)
    | Str(s: string)
    | Arr(items: seq<Value>)
    | Obj(fields: map<string, Value>)

  /** True iff `v` is an object that holds `key`. */
  predicate HasKey(v: Value, key: string) {
    v.Obj? && key in v.fields
  }

}

=== FILE: numeric.dfy ===
/** Python's numeric conversions that the modelled code relies on. */
module Numeric {

  import opened Json
  import opened Results

  /** Python's `int(v)` on a float: truncation toward zero. The two
      implications characterise the result uniquely. */
  function Trunc(v: real): (n: int)
    ensures 0.0 <= v ==> n as real <= v < n as real + 1.0
    ensures v < 0.0 ==> n as real - 1.0 < v <= n as real
  {
    if v >= 0.0 then v.Floor else -((-v).Floor)
  }

  lemma TruncMonotone(a: real, b: real)
    requires a <= b
    ensures Trunc(a) <= Trunc(b)
  {
  }

  lemma TruncOfInt(k: int)
    ensures Trunc(k as real) == k
  {
  }

  /** Python arithmetic on a JSON value (`1 - v`, `v * 1.0`): numbers take
      part as themselves, booleans as 1 and 0, everything else raises
      TypeError. */
  function AsNumber(v: Value): (r: Result<real>)
    ensures r.Ok? <==> v.Num? || v.Bool?
    ensures v.Num? ==> r == Ok(v.n)
    ensures r.Err? ==> r.error == TypeError
  {
    match v
    case Num(n) => Ok(n)
    case Bool(b) => Ok(if b then 1.0 else 0.0)
    case _ => Err(TypeError)
  }

}

=== FILE: results.dfy ===
/** Failure-compatible wrappers and the Python exceptions the modelled code
    can raise. An operation that raises in the program returns `Err` here. */
module Results {

  import opened Json

  datatype Option<+T> = None | Some(value: T) {

    /** The wrapped value, or `default` for `None`. */
    function GetOr(default: T): T {
      match this
      case Some(v) => v
      case None => default
    }
  }

  /** The exceptions that escape the modelled code. */
  datatype Exception =
    | KeyError(key: Value)
    | IndexError
    | TypeError
    | AttributeError
    | ValueError
    | ZeroDivisionError
    | FileNotFoundError
      /** `raise Exception(message)` */
    | Raised(message: string)
      /** `raise Exception(prefix + str(about) + suffix)` */
    | RaisedAbout(prefix: string, about: Value, suffix: string)

  datatype Result<+T> = Ok(value: T) | Err(error: Exception) {

    predicate IsFailure() {
      Err?
    }

    function PropagateFailure<U>(): Result<U>
      requires Err?
    {
      Err(error)
    }

    function Extract(): T
      requires Ok?
    {
      value
    }
  }

  /** Python's `v[key]` with a string key on a parsed JSON value: a dict
      without the key raises KeyError, anything that is not a dict raises
      TypeError (lists, strings and numbers cannot be indexed by a string). */
  function Subscript(v: Value, key: string): (r: Result<Value>)
    ensures r.Ok? <==> HasKey(v, key)
    ensures r.Ok? ==> r.value == v.fields[key]
    ensures r.Err? ==> r.error == (if v.Obj? then KeyError(Str(key)) else TypeError)
  {
    if v.Obj? then
      if key in v.fields then Ok(v.fields[key]) else Err(KeyError(Str(key)))
    else
      Err(TypeError)
  }

  /** Applies `f` to every element in order and stops at the first failure,
      as a Python loop that appends to a list does when an iteration raises. */
  function MapAll<T, U>(s: seq<T>, f: T -> Result<U>): (r: Result<seq<U>>)
    ensures r.Ok? <==> forall i :: 0 <= i < |s| ==> f(s[i]).Ok?
    ensures r.Ok? ==> |r.value| == |s|
    ensures r.Ok? ==> forall i :: 0 <= i < |s| ==> f(s[i]) == Ok(r.value[i])
    ensures r.Err? ==> exists i :: 0 <= i < |s| && f(s[i]) == Err(r.error)
                                   && forall j :: 0 <= j < i ==> f(s[j]).Ok?
    decreases |s|
  {
    if |s| == 0 then Ok([])
    else
      match f(s[0])
      case Err(e) => Err(e)
      case Ok(u) =>
        match MapAll(s[1..], f)
        case Err(e) => Err(e)
        case Ok(us) => Ok([u] + us)
  }

}

=== FILE: spatial_order.dfy ===
/** The ordering of the spatial path: Python's `sorted(detections,
    key=lambda det: det.label * 100000 + det.spatialCoordinates.z)`
    (Detections.py:121). Python's sort is stable; the three facts that make
    a sort stable are proved here: the result is a permutation of the
    input, its keys never decrease, and detections with equal keys keep
    their input order. */
module SpatialOrder {

  import opened Detector

  /** Keys never decrease along `s`. */
  ghost predicate Sorted(s: seq<RawDetection>) {
    forall i, j :: 0 <= i < j < |s| ==> SortKey(s[i]) <= SortKey(s[j])
  }

  /** The detections of `s` whose key is `k`, in their order in `s`. */
  function WithKey(s: seq<RawDetection>, k: real): seq<RawDetection>
    decreases |s|
  {
    if |s| == 0 then []
    else (if SortKey(s[0]) == k then [s[0]] else []) + WithKey(s[1..], k)
  }

  /** Inserts `x` after every element whose key is at most `x`'s. */
  function Insert(x: RawDetection, s: seq<RawDetection>): (r: seq<RawDetection>)
    ensures multiset(r) == multiset(s) + multiset{x}
    ensures |r| == |s| + 1
    decreases |s|
  {
    if |s| == 0 then [x]
    else if SortKey(x) < SortKey(s[0]) then [x] + s
    else
      assert s == [s[0]] + s[1..];
      [s[0]] + Insert(x, s[1..])
  }

  /** Insertion keeps a sequence sorted. */
  lemma {:induction false} InsertSorted(x: RawDetection, s: seq<RawDetection>)
    requires Sorted(s)
    ensures Sorted(Insert(x, s))
    decreases |s|
  {
    if |s| > 0 && SortKey(x) >= SortKey(s[0]) {
      InsertSorted(x, s[1..]);
      InsertLowerBound(x, s[1..], SortKey(s[0]));
    }
  }

  /** A lower bound on every key of `s` and on `x`'s key bounds every key
      of `Insert(x, s)`. */
  lemma {:induction false} InsertLowerBound(x: RawDetection, s: seq<RawDetection>, b: real)
    requires forall i :: 0 <= i < |s| ==> b <= SortKey(s[i])
    requires b <= SortKey(x)
    ensures forall i :: 0 <= i < |Insert(x, s)| ==> b <= SortKey(Insert(x, s)[i])
    decreases |s|
  {
    if |s| > 0 && SortKey(x) >= SortKey(s[0]) {
      InsertLowerBound(x, s[1..], b);
    }
  }

  /** Insertion sort: each detection, taken in input order, is inserted
      after all earlier ones with a key not larger than its own. */
  function SortByKey(s: seq<RawDetection>): (r: seq<RawDetection>)
    ensures multiset(r) == multiset(s)
    ensures |r| == |s|
    ensures Sorted(r)
    decreases |s|
  {
    if |s| == 0 then []
    else
      assert s == s[..|s| - 1] + [s[|s| - 1]];
      InsertSorted(s[|s| - 1], SortByKey(s[..|s| - 1]));
      Insert(s[|s| - 1], SortByKey(s[..|s| - 1]))
  }

  lemma {:induction false} WithKeyAppend(a: seq<RawDetection>, b: seq<RawDetection>, k: real)
    ensures WithKey(a + b, k) == WithKey(a, k) + WithKey(b, k)
    decreases |a|
  {
    if |a| == 0 {
      assert a + b == b;
    } else {
      assert a + b == [a[0]] + (a[1..] + b);
      assert [a[0]] + a[1..] == a;
      WithKeyCons(a[0], a[1..] + b, k);
      WithKeyCons(a[0], a[1..], k);
      WithKeyAppend(a[1..], b, k);
      ConcatAssociative(if SortKey(a[0]) == k then [a[0]] else [], WithKey(a[1..], k), WithKey(b, k));
    }
  }

  lemma {:induction false} WithKeyNone(s: seq<RawDetection>, k: real)
    requires forall i :: 0 <= i < |s| ==> SortKey(s[i]) != k
    ensures WithKey(s, k) == []
    decreases |s|
  {
    if |s| > 0 {
      WithKeyNone(s[1..], k);
    }
  }

  /** Inserting into a sorted sequence puts the new element after every
      element that shares its key. */
  lemma {:induction false} InsertAfterEqualKeys(x: RawDetection, s: seq<RawDetection>, k: real)
    requires Sorted(s)
    ensures WithKey(Insert(x, s), k) == WithKey(s, k) + (if SortKey(x) == k then [x] else [])
    decreases |s|
  {
    if |s| == 0 {
      WithKeyCons(x, [], k);
    } else if SortKey(x) < SortKey(s[0]) {
      SortedHeadIsLeast(s);
      InsertAtFront(x, s, k);
    } else {
      SortedTail(s);
      InsertAfterEqualKeys(x, s[1..], k);
      InsertPastHead(x, s, k, if SortKey(x) == k then [x] else []);
    }
  }

  /** Inserting before every key: no element of `s` shares `x`'s key. */
  lemma InsertAtFront(x: RawDetection, s: seq<RawDetection>, k: real)
    requires |s| > 0 && SortKey(x) < SortKey(s[0])
    requires forall i :: 0 <= i < |s| ==> SortKey(s[0]) <= SortKey(s[i])
    ensures WithKey(Insert(x, s), k) == WithKey(s, k) + (if SortKey(x) == k then [x] else [])
  {
    assert Insert(x, s) == [x] + s;
    WithKeyCons(x, s, k);
    if SortKey(x) == k {
      WithKeyNone(s, k);
    }
  }

  /** Inserting past the head keeps the head in front. */
  lemma InsertPastHead(x: RawDetection, s: seq<RawDetection>, k: real, tail: seq<RawDetection>)
    requires |s| > 0 && SortKey(x) >= SortKey(s[0])
    requires WithKey(Insert(x, s[1..]), k) == WithKey(s[1..], k) + tail
    ensures WithKey(Insert(x, s), k) == WithKey(s, k) + tail
  {
    var rest := Insert(x, s[1..]);
    var head := if SortKey(s[0]) == k then [s[0]] else [];
    assert Insert(x, s) == [s[0]] + rest;
    WithKeyCons(s[0], rest, k);
    WithKeyCons(s[0], s[1..], k);
    assert [s[0]] + s[1..] == s;
    ConcatAssociative(head, WithKey(s[1..], k), tail);
  }

  lemma SplitLast(s: seq<RawDetection>)
    requires |s| > 0
    ensures s == s[..|s| - 1] + [s[|s| - 1]]
  {
  }

  lemma ConcatAssociative(a: seq<RawDetection>, b: seq<RawDetection>, c: seq<RawDetection>)
    ensures a + (b + c) == (a + b) + c
  {
  }

  lemma WithKeyCons(y: RawDetection, t: seq<RawDetection>, k: real)
    ensures WithKey([y] + t, k) == (if SortKey(y) == k then [y] else []) + WithKey(t, k)
  {
    assert ([y] + t)[1..] == t;
  }

  lemma SortedTail(s: seq<RawDetection>)
    requires Sorted(s) && |s| > 0
    ensures Sorted(s[1..])
  {
    forall i, j | 0 <= i < j < |s[1..]| ensures SortKey(s[1..][i]) <= SortKey(s[1..][j]) {
      assert s[1..][i] == s[i + 1] && s[1..][j] == s[j + 1];
    }
  }

  lemma SortedHeadIsLeast(s: seq<RawDetection>)
    requires Sorted(s) && |s| > 0
    ensures forall i :: 0 <= i < |s| ==> SortKey(s[0]) <= SortKey(s[i])
  {
    forall i | 0 < i < |s| ensures SortKey(s[0]) <= SortKey(s[i]) {
    }
  }

  /** Stability: for every key, the detections carrying it appear in the
      sorted output in the same relative order as in the input. */
  lemma {:induction false} SortIsStable(s: seq<RawDetection>, k: real)
    ensures WithKey(SortByKey(s), k) == WithKey(s, k)
    decreases |s|
  {
    if |s| > 0 {
      var init, last := s[..|s| - 1], s[|s| - 1];
      assert SortByKey(s) == Insert(last, SortByKey(init));
      SortIsStable(init, k);
      InsertAfterEqualKeys(last, SortByKey(init), k);
      SplitLast(s);
      WithKeyAppend(init, [last], k);
      WithKeySingleton(last, k);
    }
  }

  lemma WithKeySingleton(x: RawDetection, k: real)
    ensures WithKey([x], k) == (if SortKey(x) == k then [x] else [])
  {
    assert [x][1..] == [];
  }

  /** With depths under 100 m, the key groups detections by class first:
      every detection of a smaller class index precedes every detection of
      a larger one. */
  lemma {:induction false} SortedGroupsByLabel(s: seq<RawDetection>)
    requires Sorted(s)
    requires forall i :: 0 <= i < |s| ==> 0.0 <= s[i].spatialCoordinates.z < 100000.0
    ensures forall i, j :: 0 <= i < j < |s| ==> s[i].labelId <= s[j].labelId
  {
    forall i, j | 0 <= i < j < |s|
      ensures s[i].labelId <= s[j].labelId
    {
      assert SortKey(s[i]) <= SortKey(s[j]);
      SortKeyBand(s[i]);
      SortKeyBand(s[j]);
    }
  }

  /** The worked example of the ordering: class 0 sorts before class 1
      whatever its depth, and within class 1 the nearer detection comes
      first. */
  lemma SortExample()
    ensures var far1 := RawDetection(1, 0.9, 0.0, 0.0, 0.1, 0.1, Coordinates(0.0, 0.0, 500.0));
            var near1 := RawDetection(1, 0.8, 0.2, 0.2, 0.3, 0.3, Coordinates(0.0, 0.0, 100.0));
            var far0 := RawDetection(0, 0.7, 0.4, 0.4, 0.5, 0.5, Coordinates(0.0, 0.0, 900.0));
            SortByKey([far1, near1, far0]) == [far0, near1, far1]
  {
    var far1 := RawDetection(1, 0.9, 0.0, 0.0, 0.1, 0.1, Coordinates(0.0, 0.0, 500.0));
    var near1 := RawDetection(1, 0.8, 0.2, 0.2, 0.3, 0.3, Coordinates(0.0, 0.0, 100.0));
    var far0 := RawDetection(0, 0.7, 0.4, 0.4, 0.5, 0.5, Coordinates(0.0, 0.0, 900.0));
    assert [far1, near1, far0][..2] == [far1, near1];
    assert [far1, near1][..1] == [far1];
    assert [far1][..0] == [];
    assert SortByKey([far1]) == [far1];
    assert SortByKey([far1, near1]) == [near1, far1];
  }

}

=== FILE: text.dfy ===
/** The Python string operations the configuration code applies to
    `input_size`: `str.split(sep)` and `int(text)`. */
module Text {

  import opened Results

  /** `sep.join(parts)`. */
  function Join(parts: seq<string>, sep: char): string
    decreases |parts|
  {
    if |parts| == 0 then ""
    else if |parts| == 1 then parts[0]
    else parts[0] + [sep] + Join(parts[1..], sep)
  }

  /** `s.split(sep)` for a one-character separator: the pieces between
      separators, empty pieces included. Joining them gives `s` back. */
  function Split(s: string, sep: char): (parts: seq<string>)
    ensures |parts| >= 1
    ensures forall i :: 0 <= i < |parts| ==> sep !in parts[i]
    ensures Join(parts, sep) == s
    decreases |s|
  {
    if |s| == 0 then [""]
    else
      var rest := Split(s[1..], sep);
      if s[0] == sep then
        assert s == [sep] + Join(rest, sep);
        [""] + rest
      else
        var parts := [[s[0]] + rest[0]] + rest[1..];
        assert Join(parts, sep) == [s[0]] + Join(rest, sep) by {
          if |rest| > 1 {
            assert parts[1..] == rest[1..];
          }
        }
        assert s == [s[0]] + s[1..];
        parts
  }

  lemma {:induction false} SplitWithoutSeparator(p: string, sep: char)
    requires sep !in p
    ensures Split(p, sep) == [p]
    decreases |p|
  {
    if |p| > 0 {
      SplitWithoutSeparator(p[1..], sep);
      assert [p[0]] + p[1..] == p;
    }
  }

  lemma {:induction false} SplitAtFirstSeparator(p: string, sep: char, t: string)
    requires sep !in p
    ensures Split(p + [sep] + t, sep) == [p] + Split(t, sep)
    decreases |p|
  {
    var s := p + [sep] + t;
    if |p| == 0 {
      assert s[1..] == t;
    } else {
      assert s[1..] == p[1..] + [sep] + t;
      SplitAtFirstSeparator(p[1..], sep, t);
      assert [p[0]] + p[1..] == p;
    }
  }

  /** Splitting undoes joining, as long as no piece holds the separator. */
  lemma {:induction false} SplitJoin(parts: seq<string>, sep: char)
    requires |parts| >= 1
    requires forall i :: 0 <= i < |parts| ==> sep !in parts[i]
    ensures Split(Join(parts, sep), sep) == parts
    decreases |parts|
  {
    if |parts| == 1 {
      SplitWithoutSeparator(parts[0], sep);
    } else {
      SplitJoin(parts[1..], sep);
      SplitAtFirstSeparator(parts[0], sep, Join(parts[1..], sep));
      assert [parts[0]] + parts[1..] == parts;
    }
  }

  /** The ASCII characters `int()` ignores around its digits: space, tab,
      line feed, vertical tab, form feed and carriage return.  The
      separators 0x1c-0x1f pass `str.isspace` but are rejected by `int()`. */
  predicate IsSpace(c: char) {
    c == ' ' || (9 as char <= c <= 13 as char)
  }

  function StripLeft(s: string): string
    decreases |s|
  {
    if |s| > 0 && IsSpace(s[0]) then StripLeft(s[1..]) else s
  }

  function StripRight(s: string): string
    decreases |s|
  {
    if |s| > 0 && IsSpace(s[|s| - 1]) then StripRight(s[..|s| - 1]) else s
  }

  predicate IsDigit(c: char) {
    '0' <= c <= '9'
  }

  /** A non-empty run of decimal digits. */
  predicate IsDecimal(s: string) {
    |s| > 0 && forall i :: 0 <= i < |s| ==> IsDigit(s[i])
  }

  function DigitValue(c: char): nat
    requires IsDigit(c)
  {
    (c - '0') as nat
  }

  function DigitChar(d: nat): (c: char)
    requires d < 10
    ensures IsDigit(c) && DigitValue(c) == d
  {
    ('0' as int + d) as char
  }

  /** The value of a run of decimal digits, most significant first. */
  function DecimalValue(s: string): nat
    requires forall i :: 0 <= i < |s| ==> IsDigit(s[i])
    decreases |s|
  {
    if |s| == 0 then 0
    else DecimalValue(s[..|s| - 1]) * 10 + DigitValue(s[|s| - 1])
  }

  /** `int(text)` on a string: surrounding whitespace, an optional sign and
      at least one decimal digit; anything else raises ValueError. */
  function ParseInt(text: string): (r: Result<int>)
    ensures r.Ok? <==> var t := StripRight(StripLeft(text));
                       IsDecimal(t) || (|t| > 0 && (t[0] == '+' || t[0] == '-') && IsDecimal(t[1..]))
    ensures r.Err? ==> r.error == ValueError
  {
    var t := StripRight(StripLeft(text));
    if |t| > 0 && (t[0] == '+' || t[0] == '-') then
      if IsDecimal(t[1..]) then
        var magnitude: int := DecimalValue(t[1..]);
        Ok(if t[0] == '-' then -magnitude else magnitude)
      else Err(ValueError)
    else if IsDecimal(t) then Ok(DecimalValue(t))
    else Err(ValueError)
  }

  /** The shortest decimal spelling of `n`. */
  function NatToDecimal(n: nat): (s: string)
    ensures IsDecimal(s)
    ensures DecimalValue(s) == n
    decreases n
  {
    if n < 10 then
      [DigitChar(n)]
    else
      var s := NatToDecimal(n / 10) + [DigitChar(n % 10)];
      assert s[..|s| - 1] == NatToDecimal(n / 10);
      s
  }

  /** `str(i)` for an int. */
  function IntToDecimal(i: int): string {
    if i < 0 then "-" + NatToDecimal(-i) else NatToDecimal(i)
  }

  lemma StripDecimal(s: string)
    requires IsDecimal(s)
    ensures StripLeft(s) == s && StripRight(StripLeft(s)) == s
  {
  }

  /** A file separator before the digits is not padding: `int("\x1c5")`
      raises although `"\x1c".isspace()` holds. */
  lemma SeparatorNotPadding()
    ensures ParseInt([28 as char, '5']) == Err(ValueError)
  {
    assert StripRight(StripLeft([28 as char, '5'])) == [28 as char, '5'];
  }

  /** `int(str(i)) == i`. */
  lemma ParseIntRoundTrip(i: int)
    ensures ParseInt(IntToDecimal(i)) == Ok(i)
  {
    var s := IntToDecimal(i);
    if i < 0 {
      var digits := NatToDecimal(-i);
      assert s[1..] == digits;
      assert !IsSpace(s[0]) && !IsSpace(s[|s| - 1]);
      assert StripRight(StripLeft(s)) == s;
    } else {
      StripDecimal(s);
    }
  }

  /** `k` zero digits. */
  function Zeros(k: nat): (z: string)
    ensures |z| == k && forall i :: 0 <= i < k ==> z[i] == '0'
  {
    seq(k, _ => '0')
  }

  /** Stripping from the left removes exactly a leading run of whitespace. */
  lemma {:induction false} StripLeftSpaces(ws: string, s: string)
    requires forall i :: 0 <= i < |ws| ==> IsSpace(ws[i])
    requires |s| > 0 && !IsSpace(s[0])
    ensures StripLeft(ws + s) == s
    decreases |ws|
  {
    if |ws| > 0 {
      assert (ws + s)[1..] == ws[1..] + s;
      StripLeftSpaces(ws[1..], s);
    } else {
      assert ws + s == s;
    }
  }

  /** Stripping from the right removes exactly a trailing run of whitespace. */
  lemma {:induction false} StripRightSpaces(s: string, ws: string)
    requires forall i :: 0 <= i < |ws| ==> IsSpace(ws[i])
    requires |s| > 0 && !IsSpace(s[|s| - 1])
    ensures StripRight(s + ws) == s
    decreases |ws|
  {
    if |ws| > 0 {
      assert (s + ws)[..|s + ws| - 1] == s + ws[..|ws| - 1];
      StripRightSpaces(s, ws[..|ws| - 1]);
    } else {
      assert s + ws == s;
    }
  }

  /** A run of zeros is worth nothing. */
  lemma {:induction false} ZerosValue(k: nat)
    ensures DecimalValue(Zeros(k)) == 0
    decreases k
  {
    if k > 0 {
      assert Zeros(k)[..k - 1] == Zeros(k - 1);
      ZerosValue(k - 1);
    }
  }

  /** Leading zeros do not change the value of a run of digits. */
  lemma {:induction false} LeadingZerosValue(k: nat, s: string)
    requires forall i :: 0 <= i < |s| ==> IsDigit(s[i])
    ensures DecimalValue(Zeros(k) + s) == DecimalValue(s)
    decreases |s|
  {
    if |s| == 0 {
      assert Zeros(k) + s == Zeros(k);
      ZerosValue(k);
    } else {
      var t := Zeros(k) + s;
      assert t[..|t| - 1] == Zeros(k) + s[..|s| - 1];
      assert t[|t| - 1] == s[|s| - 1];
      LeadingZerosValue(k, s[..|s| - 1]);
    }
  }

  /** Stripping both ends removes exactly the surrounding whitespace. */
  lemma StripSurrounding(before: string, core: string, after: string)
    requires forall i :: 0 <= i < |before| ==> IsSpace(before[i])
    requires forall i :: 0 <= i < |after| ==> IsSpace(after[i])
    requires |core| > 0 && !IsSpace(core[0]) && !IsSpace(core[|core| - 1])
    ensures StripRight(StripLeft(before + core + after)) == core
  {
    assert before + core + after == before + (core + after);
    assert (core + after)[0] == core[0];
    StripLeftSpaces(before, core + after);
    StripRightSpaces(core, after);
  }

  /** An optional sign before a run of digits parses to its signed value. */
  lemma ParseSigned(sign: string, digits: string)
    requires sign == "" || sign == "+" || sign == "-"
    requires IsDecimal(digits)
    ensures ParseInt(sign + digits).Ok?
    ensures ParseInt(sign + digits).value == if sign == "-" then -(DecimalValue(digits) as int) else DecimalValue(digits)
  {
    var core := sign + digits;
    StripDecimal(digits);
    if sign != "" {
      assert core[1..] == digits;
      assert StripRight(StripLeft(core)) == core by {
        StripSurrounding("", core, "");
        assert "" + core + "" == core;
      }
    } else {
      assert core == digits;
    }
  }

  /** `int()` only looks at the stripped text. */
  lemma ParseIntOfStripped(text: string, core: string)
    requires StripRight(StripLeft(text)) == core
    requires StripRight(StripLeft(core)) == core
    ensures ParseInt(text) == ParseInt(core)
  {
  }

  /** Zeros in front of a decimal spelling keep it decimal and keep its value. */
  lemma PaddedDigits(k: nat, n: nat)
    ensures IsDecimal(Zeros(k) + NatToDecimal(n))
    ensures DecimalValue(Zeros(k) + NatToDecimal(n)) == n
  {
    LeadingZerosValue(k, NatToDecimal(n));
  }

  /** An optional sign before digits neither starts nor ends with
      whitespace, so stripping leaves it alone. */
  lemma SignedCoreEnds(sign: string, digits: string)
    requires sign == "" || sign == "+" || sign == "-"
    requires IsDecimal(digits)
    ensures var core := sign + digits;
            |core| > 0 && !IsSpace(core[0]) && !IsSpace(core[|core| - 1])
            && StripRight(StripLeft(core)) == core
  {
    var core := sign + digits;
    assert !IsSpace(core[0]) by {
      if sign == "" { assert core[0] == digits[0]; }
    }
    assert core[|core| - 1] == digits[|digits| - 1];
    StripSurrounding("", core, "");
    assert "" + core + "" == core;
  }

  lemma RegroupPadded(before: string, sign: string, digits0: string, digits1: string, after: string)
    ensures before + sign + digits0 + digits1 + after == before + (sign + (digits0 + digits1)) + after
  {
  }

  /** `int()` ignores surrounding whitespace, a leading `+` and leading
      zeros, and a leading `-` negates: `int(" +007 ") == 7`. */
  lemma {:induction false} ParseIntPadded(before: string, sign: string, k: nat, n: nat, after: string)
    requires forall i :: 0 <= i < |before| ==> IsSpace(before[i])
    requires forall i :: 0 <= i < |after| ==> IsSpace(after[i])
    requires sign == "" || sign == "+" || sign == "-"
    ensures ParseInt(before + sign + Zeros(k) + NatToDecimal(n) + after).Ok?
    ensures ParseInt(before + sign + Zeros(k) + NatToDecimal(n) + after).value == if sign == "-" then -(n as int) else n
  {
    var digits := Zeros(k) + NatToDecimal(n);
    var core := sign + digits;
    PaddedDigits(k, n);
    SignedCoreEnds(sign, digits);
    StripSurrounding(before, core, after);
    RegroupPadded(before, sign, Zeros(k), NatToDecimal(n), after);
    ParseIntOfStripped(before + core + after, core);
    ParseSigned(sign, digits);
  }

}
